=== FILE: README.md ===
# GitCite core in Dafny

GitCite turns a GitHub or GitLab repository reference into a BibTeX `@misc` entry. Its
core logic is in `src/services/repoService.ts`, and this project models it:

- **The reference parser** (`parseRepoUrl`). It tries six regular expressions in order.
  The first one that matches decides. Each pattern is a hand-written greedy matcher
  over `seq<char>` (module `RepoUrl`):
  - `[^/]+` reaches as far as the maximal slash-free run;
  - `String.prototype.match` finds the leftmost match;
  - the optional `(https?://)?` group captures exactly the scheme written, because the
    rest of each anchored pattern starts with `g`.

  The match array is a `seq<Option<string>>`, with `None` for `undefined`, and `a || b`
  follows JavaScript truthiness.
- **The tag comparator** (`compareVersions`, module `Versions`) and **the latest-tag
  choice** made by sorting the tag list and taking element 0 (module `LatestTag`).
- **The dispatch** in `fetchRepositoryData` (module `Fetch`):
  - which API is asked, and for which project;
  - the "Invalid repository URL format" error;
  - how the repository record is assembled from the API answers.
- **The citation builder** (`generateCitation`, module `CitationFormat`).

The records `RepositoryData` and `Citation` of `src/types/index.ts:2-24` are the
datatypes of module `Types`.

What the model proves, in the system's terms:

- where `github.com/o/r` occurs anywhere, the leftmost occurrence gives GitHub repository
  `o/r` minus one `.git`;
- a bare `a/b` is always GitHub;
- a `gitlab.com/a/b` reference comes out as owner `b`;
- a self-hosted `gitlab.H/o/r` gives instance `gitlab.H` whichever dot the greedy split
  chose;
- the two anchored full-URL patterns can never decide a result;
- an input without a slash is refused before any request;
- the comparator is reflexive and exactly antisymmetric, but not transitive;
- the chosen tag is a member of the list, and it is the latest one whenever the
  comparator is consistent on the list;
- the entry text splits back into its seven lines, and its key can be read back from it.

Behaviour of the code that its own comments do not lead one to expect, modelled as the
code is written:

- The comment on line 15 describes the pattern as `gitlab.com/owner/repo`, but line 40
  reads the owner as `match[2] || match[1]`, which is the *repository* segment for that
  pattern. So `gitlab.com/gitlab-org/gitlab` has owner `gitlab`
  (`RepoUrlProps.ParseGitLabCom`, `RepoUrlExamples.GitLabComExample`).
- A "github.com/" with nothing after it does not make a reference GitHub:
  `gitlab.com/a/b/github.com/` is the gitlab.com reference `b`/`b`
  (`RepoUrlExamples.TrailingGitHubExample`).
- The repository can be empty: `o/.git` gives repo `""` (`RepoUrlExamples.EmptyRepoExample`).
- A reference with exactly one slash is GitHub even when its first segment names a
  GitLab host (`RepoUrlProps.ParseBare`).
- gitlab.com references carry the instance `"gitlab.com"` explicitly.
- The full-URL patterns at lines 10 and 16 are dead code
  (`RepoUrlProps.FullUrlPatternsNeverFire`).
- The comparator has a three-tag cycle (`VersionsExamples.NotTransitive`), so "sorted
  newest first" is not well defined on every tag list.

## Model

| member | source | states |
|---|---|---|
| Optional.FirstSome | src/services/repoService.ts:22 | the leftmost-search skeleton: the index found gives a value and every earlier index gives none; `None` means no index in range gives one |
| Text.FirstIn | src/services/repoService.ts:8 | the end of the greedy `[^/]+` run: every character skipped is not a separator, and the stop is the end or a separator |
| Text.FirstInAt | src/services/repoService.ts:8 | the greedy run is determined by where a separator-free stretch actually stops |
| Text.SplitAt | src/services/repoService.ts:69-70 | `split` on a character class gives at least one part, and no part holds a separator |
| Text.SplitJoin | src/services/repoService.ts:69-70 | splitting a text joined from separator-free parts gives back exactly those parts |
| Text.StripGit | src/services/repoService.ts:26 | `.replace(/\.git$/, '')` removes four characters or none |
| Text.StripGitRemovesSuffix | src/services/repoService.ts:26 | a trailing `.git` is removed exactly once: `x + ".git"` becomes `x` |
| Text.StripGitKeepsOthers | src/services/repoService.ts:26 | a name not ending in `.git` is left unchanged |
| Text.NatToString | src/services/repoService.ts:250 | the decimal rendering of a year is never empty |
| Text.NatToStringRoundTrip | src/services/repoService.ts:250 | the decimal rendering is the shortest numeral (digits only, no leading zero) and reads back as the number rendered |
| Text.IntToStringRoundTrip | src/services/repoService.ts:250 | every integer, negative ones included, is rendered as its shortest numeral after a `-` when negative, which is what `toString` prints for every integer below 10^21 in magnitude and so for every year a `Date` holds |
| Text.NumeralPrintsItself | src/services/repoService.ts:250 | every shortest numeral is the rendering of its own value |
| Text.PrintsAsExactly | src/services/repoService.ts:250 | a text is the printed form of an integer exactly when it is that integer's rendering, so the printed form is unique |
| RepoUrl.SegmentPairAt | src/services/repoService.ts:8 | the `([^/]+)/([^/]+)` match at a position: two non-empty captures separated by a slash, inside the input |
| RepoUrl.SegmentPairAtSound | src/services/repoService.ts:8 | what the greedy segment match finds is two slash-free non-empty segments, a slash between them, and the end or a slash after them |
| RepoUrl.SegmentPairAtComplete | src/services/repoService.ts:8 | conversely, any two segments of that shape at a position are exactly what the match captures |
| RepoUrl.HostPairAt | src/services/repoService.ts:8 | the host pattern matches at a position only where the host and its slash occur there |
| RepoUrl.FirstHostMatch | src/services/repoService.ts:8 | the unanchored host pattern's match is at a position inside the input where the pattern matches, with the segments found there |
| RepoUrl.FirstHostMatchLeftmost | src/services/repoService.ts:22 | `match` returns the leftmost match: no earlier position matches, and a failed search means no position matches |
| RepoUrl.SchemeLength | src/services/repoService.ts:10 | the optional `(https?://)?` group spans 0, 7 or 8 characters of the input |
| RepoUrl.LastDotBelow | src/services/repoService.ts:17 | the last dot below a bound: a dot, with no dot between it and the bound, and `None` only when no index from 1 up to the bound holds a dot |
| RepoUrl.HostSplit | src/services/repoService.ts:17 | the greedy `([^/]+)\.([^/]+)` splits the host run at its last interior dot, and fails only when the run has no interior dot |
| RepoUrl.Exec | src/services/repoService.ts:7-18 | a match of any of the six patterns has one entry per group plus the whole match, and every group except the optional scheme captures non-empty text |
| RepoUrl.BareExec | src/services/repoService.ts:9 | the whole-input `owner/repo` match has three non-empty entries |
| RepoUrl.HostExec | src/services/repoService.ts:8 | the unanchored host-pattern match has three non-empty entries |
| RepoUrl.FullUrlExec | src/services/repoService.ts:10 | the anchored full-URL match has four entries, all non-empty except the optional scheme |
| RepoUrl.InstanceExec | src/services/repoService.ts:17 | the self-hosted match has six entries, all non-empty except the optional scheme |
| RepoUrl.InstanceAfterHost | src/services/repoService.ts:17 | the rest of the self-hosted pattern after the host run: six entries, all non-empty except the scheme |
| RepoUrl.GitHubResult | src/services/repoService.ts:24-28 | a GitHub match yields a non-empty owner, the GitHub flag and no instance |
| RepoUrl.GitLabComResult | src/services/repoService.ts:39-44 | a gitlab.com match yields a non-empty owner, the GitLab flag and an instance starting with "gitlab." |
| RepoUrl.InstanceResult | src/services/repoService.ts:48-54 | a self-hosted match yields a non-empty owner and an instance starting with "gitlab." |
| RepoUrl.TryGitHub | src/services/repoService.ts:21-30 | whichever GitHub pattern decides, the result has a non-empty owner, the GitHub flag and no instance |
| RepoUrl.TryGitLab | src/services/repoService.ts:33-57 | whichever GitLab pattern decides, the result has a non-empty owner, the GitLab flag and an instance starting with "gitlab." |
| RepoUrl.Parse | src/services/repoService.ts:5-60 | a parsed reference has a non-empty owner; it is GitHub exactly when it carries no instance; every GitLab instance starts with "gitlab." |
| RepoUrlProps.FullUrlPatternsNeverFire | src/services/repoService.ts:8-16 | wherever an anchored full-URL pattern matches, the unanchored pattern for the same host, tried earlier, matches too |
| RepoUrlProps.ParseFailsIffNoPatternMatches | src/services/repoService.ts:21-59 | the parser returns null exactly when none of the six patterns matches |
| RepoUrlProps.ExecNeedsSlash | src/services/repoService.ts:7-18 | every one of the six patterns needs a slash in the input |
| RepoUrlProps.ParseNeedsSlash | src/services/repoService.ts:5-60 | an input without a slash is rejected |
| RepoUrlProps.NoHostMatch | src/services/repoService.ts:8 | a host pattern cannot match an input in which the host and its slash do not occur |
| RepoUrlProps.NotBare | src/services/repoService.ts:9 | an input with two slashes is never read as a bare `owner/repo` |
| RepoUrlProps.NoGitHub | src/services/repoService.ts:7-30 | an input with two slashes and no "github.com/" matches none of the GitHub patterns |
| RepoUrlProps.ParseGitHubHost | src/services/repoService.ts:8-29 | `github.com/o/r` after any prefix, before any trailing path, at the leftmost "github.com/", gives GitHub owner `o` and repo `r` minus one `.git` |
| RepoUrlProps.ParseBare | src/services/repoService.ts:9-29 | an `a/b` with one slash and non-empty sides is GitHub `a`/`b` minus `.git`, even when `a` names a GitLab host |
| RepoUrlProps.ParseGitLabCom | src/services/repoService.ts:15-44 | `gitlab.com/a/b` at the leftmost "gitlab.com/", in any input no GitHub pattern matches, gives the gitlab.com instance, repo `b` minus `.git`, and owner `b` |
| RepoUrlProps.ParseGitLabComWithoutGitHub | src/services/repoService.ts:7-44 | the same for every input without "github.com/": no GitHub pattern can match there |
| RepoUrlProps.HostOnlyAtEnd | src/services/repoService.ts:8 | a host literal that can only occur at the very end of the input leaves no room for the two segments, so neither pattern for that host matches |
| RepoUrlProps.OnlyInstanceLeft | src/services/repoService.ts:21-57 | with two slashes and neither host literal, the parse is decided by the self-hosted pattern alone |
| RepoUrlProps.InstanceExecFrom | src/services/repoService.ts:17 | the rebuilt domain "gitlab." + group 2 + "." + group 3 is "gitlab." followed by the whole host run, and groups 4 and 5 are the two segments |
| RepoUrlProps.ParseByInstance | src/services/repoService.ts:47-54 | a self-hosted match decides with owner group 4, repo group 5 minus `.git`, and the domain rebuilt from groups 2 and 3 |
| RepoUrlProps.ParseGitLabInstance | src/services/repoService.ts:17-54 | `[http[s]://]gitlab.H/o/r`, with `H` slash-free and holding an interior dot, in any input that no GitHub pattern and no gitlab.com pattern matches, gives instance "gitlab." + `H`, owner `o`, repo `r` minus `.git` |
| RepoUrlProps.ParseGitLabInstanceWithoutHosts | src/services/repoService.ts:7-54 | the same for every such input without "github.com/" and "gitlab.com/" |
| RepoUrlExamples.SelfHostedExample | src/services/repoService.ts:17-54 | `gitlab.tails.net/team/proj` gives owner `team`, repo `proj`, instance `gitlab.tails.net` |
| RepoUrlExamples.GitHubUrlExample | src/services/repoService.ts:8-29 | `https://github.com/bar/Foo.git/tree/main` gives GitHub `bar`/`Foo` |
| RepoUrlExamples.BareExample | src/services/repoService.ts:9-29 | `bar/Foo` gives GitHub `bar`/`Foo` |
| RepoUrlExamples.GitLabComExample | src/services/repoService.ts:15-44 | `https://gitlab.com/gitlab-org/gitlab` gives owner `gitlab`, not `gitlab-org` |
| RepoUrlExamples.TrailingGitHubExample | src/services/repoService.ts:8-44 | `gitlab.com/a/b/github.com/` gives the gitlab.com reference with owner and repo `b`, because the trailing "github.com/" has no segments after it |
| RepoUrlExamples.EmptyRepoExample | src/services/repoService.ts:9-29 | `o/.git` gives an empty repository name |
| RepoUrlExamples.NoSlashExample | src/services/repoService.ts:59 | `not a repository` is rejected |
| Versions.StripV | src/services/repoService.ts:65-66 | exactly one leading `v` is removed, and a text not starting with `v` is kept |
| Versions.Parts | src/services/repoService.ts:69-70 | a tag has at least one part, and no part holds '.' or '-' |
| VersionsProps.PartsOfJoin | src/services/repoService.ts:65-70 | a tag without a leading `v` written as separator-free parts joined by '.' splits back into exactly those parts |
| Versions.OrdinalCompare | src/services/repoService.ts:91 | the text-order stand-in answers -1, 0 or 1, and 0 exactly for equal texts |
| VersionsProps.OrdinalCompareAt | src/services/repoService.ts:91 | text order is decided at the first differing position, or by length when one text is a prefix of the other |
| VersionsProps.OrdinalAntisymmetric | src/services/repoService.ts:91 | swapping the texts negates the text order |
| VersionsProps.ComparePartAntisymmetric | src/services/repoService.ts:81-98 | swapping two parts negates their comparison, with the "p" rule applied the same way from both sides |
| VersionsProps.CompareFromAntisymmetric | src/services/repoService.ts:75-104 | swapping the part lists negates the comparison from any index on |
| VersionsProps.CompareVersionsAntisymmetric | src/services/repoService.ts:63-105 | `compareVersions(b, a) == -compareVersions(a, b)`, so two tags are never each newer than the other |
| VersionsProps.CompareVersionsReflexive | src/services/repoService.ts:63-105 | a tag ties with itself |
| VersionsProps.FirstDifferenceDecides | src/services/repoService.ts:75-100 | the first part pair that differs decides the comparison |
| VersionsProps.TieGoesToMoreParts | src/services/repoService.ts:102-104 | when all padded parts tie, the tag with more parts sorts first, by the difference in part counts |
| VersionsProps.LeadingVIgnored | src/services/repoService.ts:65-66 | one leading `v` does not change how a tag compares with any other, from either side |
| VersionsProps.NumericPartsByValue | src/services/repoService.ts:81-88 | two decimal parts compare by value, the larger first, and tie exactly when equal in value |
| VersionsProps.PatchFollowsNumbers | src/services/repoService.ts:93-95 | a "p" part sorts after any decimal part, from either side |
| VersionsProps.TextPartsReversed | src/services/repoService.ts:90-97 | other parts compare by reversed text order |
| VersionsExamples.NumbersNotText | src/services/repoService.ts:81-88 | "1.10" sorts ahead of "1.9" |
| VersionsExamples.MissingPartIsZero | src/services/repoService.ts:76-78 | "2.0.1" sorts ahead of "2.0": the missing part reads as "0" |
| VersionsExamples.MorePartsWin | src/services/repoService.ts:102-104 | "2.0.0" sorts ahead of "2.0": all parts tie and more parts win |
| VersionsExamples.LeadingVExample | src/services/repoService.ts:65-66 | "v1.2" ties with "1.2" |
| VersionsExamples.PatchRuleExample | src/services/repoService.ts:94-95 | `compareVersions("1.0.0-p", "1.0.0-3") == 1` and the reverse gives -1 |
| VersionsExamples.NotTransitive | src/services/repoService.ts:63-105 | "1.3" sorts ahead of "1.p", "1.p" ahead of "1.alpha", and "1.alpha" ahead of "1.3": the comparator is not a total order |
| LatestTag.VersionComparatorAntisymmetric | src/services/repoService.ts:121-123 | the sort comparator is antisymmetric on all tag names |
| LatestTag.LatestUnique | src/services/repoService.ts:119-127 | at most one index holds the latest tag |
| LatestTag.SelectLatest | src/services/repoService.ts:119-127 | no tag is chosen exactly for an empty list; otherwise the choice is an index of the list, and on a consistent list the chosen tag is at least as new as every tag and strictly newer than every earlier one |
| LatestTag.LatestByVersion | src/services/repoService.ts:176-185 | the same with the version comparator |
| LatestTagExamples.CycleHasNoLatest | src/services/repoService.ts:121-127 | on the three-tag cycle no tag is latest, and the list is not consistent |
| Fetch.PlanFetch | src/services/repoService.ts:219-233 | an unparsable reference fails with "Invalid repository URL format", and only then; otherwise the request carries the parsed owner, repo and host, with a GitLab instance starting with "gitlab." |
| Fetch.TagNames | src/services/repoService.ts:121-123 | the names the sort compares: one per tag, in the order of the tag list |
| Fetch.Description | src/services/repoService.ts:150 | a null description becomes the empty text; any other is kept |
| Fetch.GitHubRepositoryData | src/services/repoService.ts:117-159 | a tag is chosen exactly when there are tags, and it is the latest on a consistent list; the fetch fails, with "Failed to fetch GitHub repository information", exactly when the chosen tag's commit date does not parse (the ISO logging throws); otherwise the record copies the project fields and carries the chosen tag dated by its commit, or no tag |
| Fetch.GitLabRepositoryData | src/services/repoService.ts:174-215 | the same for GitLab, with the tag's own creation date, failing with the message that names the instance |
| Fetch.GitLabFailure | src/services/repoService.ts:214 | the GitLab fetch error ends with the name of the instance asked |
| FetchProps.ChosenUnique | src/services/repoService.ts:119-127 | on a consistently ordered list the selection can choose only one tag, the latest |
| FetchProps.NoSlashNoRequest | src/services/repoService.ts:220-224 | a reference without a slash raises the format error before any request |
| FetchProps.SelfHostedRequest | src/services/repoService.ts:226-232 | `gitlab.tails.net/team/proj` asks instance `gitlab.tails.net` for `team`/`proj` |
| FetchProps.GitLabComRequest | src/services/repoService.ts:226-232 | `https://gitlab.com/gitlab-org/gitlab` asks gitlab.com for `gitlab`/`gitlab` |
| CitationFormat.EntryLines | src/services/repoService.ts:270-276 | the entry template has seven lines |
| CitationFormat.GenerateCitation | src/services/repoService.ts:236-288 | title, author and url are copied; the publisher follows the host flag; the key is owner, year and name run together |
| CitationProps.YearOneLine | src/services/repoService.ts:250 | the year field holds no line break |
| CitationProps.CitationLines | src/services/repoService.ts:270-276 | when the fields hold no line break, the entry splits at line breaks into exactly its seven template lines |
| CitationProps.EntryKeyRoundTrip | src/services/repoService.ts:253-270 | the key can be read back from the entry text between "@misc{" and the first comma, whenever it holds no comma |
| CitationProps.TagYearRoundTrip | src/services/repoService.ts:238-250 | a tag with a non-empty, parsable date gives that year as `toString` prints it: the shortest numeral, after a `-` for a negative year |
| CitationProps.CurrentYearRoundTrip | src/services/repoService.ts:237-250 | without a tag or with an empty date, the current year is cited, printed the same way |
| CitationProps.UnparsableDateYear | src/services/repoService.ts:238-250 | an unparsable date gives the year "NaN", not the current year, when `generateCitation` is called on such a record directly |
| CitationProps.VersionRule | src/services/repoService.ts:257-265 | the version is the tag's name when non-empty, and "latest" exactly when there is no named tag or the tag is named "latest" |
| CitationExamples.TaggedGitHubExample | src/services/repoService.ts:236-288 | repository `bar/Foo` with tag `v1.2.0` dated in 2023 gives key `bar2023Foo`, year `2023`, version `v1.2.0` and the filled template |

## Left out

- HTTP requests are not modelled. This covers the repository, tag and commit requests,
  their endpoint URLs built with `encodeURIComponent`, and the errors thrown when they fail
  (lines 156-159 and 212-215). Their answers arrive as records. The GitHub commit-date
  lookup is the function parameter `commitDate`.
- `suggestRepositories` (lines 291-302) is a network search.
- The output of `console.log` and `console.error` is not modelled. Their arguments are:
  at lines 133-138 and 189-194 the logged object evaluates
  `new Date(tagDate).toISOString()`, which throws a RangeError for a date that does not
  parse (ECMA-262, `Date.prototype.toISOString`). The fetch methods model that failure through the
  date parser `yearOf`, which is `None` exactly where the time value is NaN.
- The "NaN" year (`CitationProps.UnparsableDateYear`) and the empty-date branch of the
  year field occur only when `generateCitation` is called on such a record directly. The
  application calls it only on a record `fetchRepositoryData` returned (`src/App.tsx`
  lines 71-72), and the fetch has already failed for such a date: `new Date("")` is not a
  date either. `src/App.tsx` is not part of this model.
- The clock and date parsing are parameters: `currentYear`, `accessYear` and
  `yearOf: string -> Option<int>`, where `None` stands for an unparsable date. Time zones
  are therefore outside the model.
- `localeCompare` is replaced by ordinal character order. Locale collation is a host
  library service. The stand-in keeps antisymmetry, which the general proofs use. The
  three-tag cycle also uses two specific orderings: "alpha" before "p" and "3" before
  "alpha". Locale collation agrees on both, since it puts digits before letters and
  orders letters alphabetically, so the cycle exists in the program as well. The two
  orders disagree on letter case: ordinal order puts "B" before "a", collation puts "a"
  first, so the model may order such tags differently from the program.
- `parseInt` reads digit parts as unbounded naturals. Precision loss on parts beyond 2^53
  is not modelled.
- `Array.prototype.sort` is replaced by a scan that keeps a candidate and replaces it
  only with a strictly newer tag. On a consistent list this is the tag a stable sort
  puts first. On an inconsistent list no latest tag need exist
  (`LatestTagExamples.CycleHasNoLatest`), and the engine's order is then
  implementation-defined (section 23.1.3.30 of ECMA-262).
- LatestTag.SelectLatest: promises the latest tag only when the comparator is consistent
  on the list. On an inconsistent list it promises only membership, because the sort it
  stands for promises no more.
- Fetch.GitHubRepositoryData: promises the latest tag only on a consistent list, for the
  same reason. Its failure is the one the date logging raises; the request failures
  that share the catch at lines 156-159 are outside the model with HTTP.
- Fetch.GitLabRepositoryData: promises the latest tag only on a consistent list, for the
  same reason, and models the same failure (lines 212-215).
- `toString` prints integers of magnitude 10^21 and above in exponent notation
  (`"1e+21"`). The rendering here always writes all digits. No year reaches that range:
  a `Date` holds years within ±275760, although `YearOf` returns an unbounded `int`.
- JavaScript strings are UTF-16 code units. Here a string is a `seq<char>`, and `\d` is
  the ASCII digits.
- The fallback `gitlabInstance || 'gitlab.com'` (line 231) is modelled but never taken:
  every GitLab parse carries an instance.
- The user interface, React state, analytics and tests are not part of this model.

=== FILE: citation.dfy ===
/** The BibTeX `@misc` entry built from repository facts. The clock and the date parser
    are parameters: `currentYear` and `accessYear` are the two readings of the current
    year, and `yearOf` is the calendar year of a date text, `None` when the text is not
    a date (the program then prints "NaN"). */
module CitationFormat {
  import opened Optional
  import opened Text
  import opened Types

  /** What a year that is not a number prints as. */
  const NotANumber := "NaN"

  /** The year field: the latest tag's year when the tag has a non-empty date, the
      current year otherwise. */
  function YearText(d: RepositoryData, currentYear: int, yearOf: YearOf): string {
    if d.latestTag.Some? && d.latestTag.value.date != "" then
      match yearOf(d.latestTag.value.date)
      case Some(y) => IntToString(y)
      case None => NotANumber
    else IntToString(currentYear)
  }

  /** The version field: the latest tag's name when it is non-empty, "latest" otherwise. */
  function VersionText(d: RepositoryData): string {
    if d.latestTag.Some? && d.latestTag.value.name != "" then d.latestTag.value.name else "latest"
  }

  function PublisherText(isGitHub: bool): string {
    if isGitHub then "GitHub" else "GitLab"
  }

  /** The seven lines of the entry, in order. */
  function EntryLines(key: string, d: RepositoryData, year: string, publisher: string,
                      version: string, accessYear: int): (lines: seq<string>)
    ensures |lines| == 7
  {
    [ "@misc{" + key + ",",
      "  author = {" + d.owner + "},",
      "  title = {{" + d.name + "}},",
      "  howpublished = {\\url{" + d.url + "}},",
      "  year = {" + year + "},",
      "  note = {" + publisher + " Repository, version {" + version + "}, accessed " + IntToString(accessYear) + "}",
      "}" ]
  }

  /** The citation of a repository. */
  function GenerateCitation(d: RepositoryData, currentYear: int, accessYear: int, yearOf: YearOf): (c: Citation)
    ensures c.title == d.name && c.author == d.owner && c.url == d.url
    ensures c.publisher == (if d.isGitHub then "GitHub" else "GitLab")
    ensures c.key == d.owner + c.year + d.name
  {
    var year := YearText(d, currentYear, yearOf);
    var key := d.owner + year + d.name;
    var publisher := PublisherText(d.isGitHub);
    var version := VersionText(d);
    Citation(Join(EntryLines(key, d, year, publisher, version, accessYear), '\n'),
             key, d.name, d.owner, d.url, year, publisher, version)
  }
}

=== FILE: citation_props.dfy ===
/** What a generated citation promises: its fields are the repository's, the year and
    version follow the latest tag, and the entry text can be read back line by line and
    key by key. */
module CitationProps {
  import opened Optional
  import opened Text
  import opened Types
  import opened CitationFormat

  const Newline: set<char> := {'\n'}

  /** A rendered number holds no line break. */
  lemma IntToStringOneLine(n: int)
    ensures Free(IntToString(n), Newline)
  {
    if n < 0 {
      NatToStringRoundTrip(-n);
      var s := NatToString(-n);
      assert forall i :: 0 <= i < |s| ==> IsDigit(s[i]);
      assert forall i :: 1 <= i < |"-" + s| ==> ("-" + s)[i] == s[i - 1];
    } else {
      NatToStringRoundTrip(n);
    }
  }

  /** The year field holds no line break. */
  lemma YearOneLine(d: RepositoryData, currentYear: int, yearOf: YearOf)
    ensures Free(YearText(d, currentYear, yearOf), Newline)
  {
    if d.latestTag.Some? && d.latestTag.value.date != "" && yearOf(d.latestTag.value.date).Some? {
      IntToStringOneLine(yearOf(d.latestTag.value.date).value);
    } else if !(d.latestTag.Some? && d.latestTag.value.date != "") {
      IntToStringOneLine(currentYear);
    }
  }

  lemma FreeConcat(a: string, b: string, seps: set<char>)
    requires Free(a, seps) && Free(b, seps)
    ensures Free(a + b, seps)
  {
    assert forall i :: |a| <= i < |a + b| ==> (a + b)[i] == b[i - |a|];
  }

  /** A literal, a field and a literal make one line when the field is one line. */
  lemma Bracketed(pre: string, field: string, post: string)
    requires Free(pre, Newline) && Free(field, Newline) && Free(post, Newline)
    ensures Free(pre + field + post, Newline)
  {
    FreeConcat(pre, field, Newline);
    FreeConcat(pre + field, post, Newline);
  }

  /** The note line is one line when its fields are. */
  lemma NoteOneLine(publisher: string, version: string, accessYear: int)
    requires Free(publisher, Newline) && Free(version, Newline)
    ensures Free("  note = {" + publisher + " Repository, version {" + version + "}, accessed " + IntToString(accessYear) + "}", Newline)
  {
    IntToStringOneLine(accessYear);
    var a := "  note = {" + publisher;
    FreeConcat("  note = {", publisher, Newline);
    FreeConcat(a, " Repository, version {", Newline);
    FreeConcat(a + " Repository, version {", version, Newline);
    FreeConcat(a + " Repository, version {" + version, "}, accessed ", Newline);
    FreeConcat(a + " Repository, version {" + version + "}, accessed ", IntToString(accessYear), Newline);
    FreeConcat(a + " Repository, version {" + version + "}, accessed " + IntToString(accessYear), "}", Newline);
  }

  /** Each of the seven lines is a single line when the fields are. */
  lemma EntryLinesOneLine(key: string, d: RepositoryData, year: string, publisher: string,
                          version: string, accessYear: int)
    requires Free(key, Newline) && Free(d.owner, Newline) && Free(d.name, Newline) && Free(d.url, Newline)
    requires Free(year, Newline) && Free(publisher, Newline) && Free(version, Newline)
    ensures forall k :: 0 <= k < 7 ==> Free(EntryLines(key, d, year, publisher, version, accessYear)[k], Newline)
  {
    Bracketed("@misc{", key, ",");
    Bracketed("  author = {", d.owner, "},");
    Bracketed("  title = {{", d.name, "}},");
    Bracketed("  howpublished = {\\url{", d.url, "}},");
    Bracketed("  year = {", year, "},");
    NoteOneLine(publisher, version, accessYear);
  }

  /** When the repository's name, owner, address and tag name are single lines, the
      entry splits at line breaks into exactly its seven lines. */
  lemma CitationLines(d: RepositoryData, currentYear: int, accessYear: int, yearOf: YearOf)
    requires Free(d.owner, Newline) && Free(d.name, Newline) && Free(d.url, Newline)
    requires d.latestTag.Some? ==> Free(d.latestTag.value.name, Newline)
    ensures
      var c := GenerateCitation(d, currentYear, accessYear, yearOf);
      SplitAt(c.bibtexString, Newline) ==
        EntryLines(c.key, d, c.year, c.publisher, c.version, accessYear)
  {
    var c := GenerateCitation(d, currentYear, accessYear, yearOf);
    YearOneLine(d, currentYear, yearOf);
    Bracketed(d.owner, c.year, d.name);
    assert c.key == d.owner + c.year + d.name;
    EntryLinesOneLine(c.key, d, c.year, c.publisher, c.version, accessYear);
    SplitJoin(EntryLines(c.key, d, c.year, c.publisher, c.version, accessYear), '\n', Newline);
  }

  /** The key of an entry: the text between "@misc{" and the first comma. */
  function EntryKey(bib: string): Option<string> {
    if |bib| >= 6 && bib[..6] == "@misc{" then
      var k := FirstIn(bib, {','}, 6);
      if k < |bib| then Some(bib[6..k]) else None
    else None
  }

  /** The key can be read back from the entry text whenever it holds no comma. */
  lemma EntryKeyRoundTrip(d: RepositoryData, currentYear: int, accessYear: int, yearOf: YearOf)
    requires
      var c := GenerateCitation(d, currentYear, accessYear, yearOf);
      Free(c.key, {','})
    ensures
      var c := GenerateCitation(d, currentYear, accessYear, yearOf);
      EntryKey(c.bibtexString) == Some(c.key)
  {
    var c := GenerateCitation(d, currentYear, accessYear, yearOf);
    var lines := EntryLines(c.key, d, c.year, c.publisher, c.version, accessYear);
    var first := "@misc{" + c.key + ",";
    var rest := Join(lines[1..], '\n');
    assert c.bibtexString == first + ['\n'] + rest;
    var bib := c.bibtexString;
    assert bib[..6] == "@misc{";
    assert forall j :: 6 <= j < 6 + |c.key| ==> bib[j] == c.key[j - 6];
    assert bib[6 + |c.key|] == ',';
    FirstInAt(bib, {','}, 6, 6 + |c.key|);
    assert bib[6..6 + |c.key|] == c.key;
  }

  /** A tag with a parsable date gives that date's year, printed as JavaScript prints
      the number. */
  lemma TagYearRoundTrip(d: RepositoryData, currentYear: int, accessYear: int, yearOf: YearOf, y: int)
    requires d.latestTag.Some? && d.latestTag.value.date != ""
    requires yearOf(d.latestTag.value.date) == Some(y)
    ensures PrintsAs(GenerateCitation(d, currentYear, accessYear, yearOf).year, y)
  {
    IntToStringRoundTrip(y);
  }

  /** Without a dated tag the current year is cited, printed as JavaScript prints it. */
  lemma CurrentYearRoundTrip(d: RepositoryData, currentYear: int, accessYear: int, yearOf: YearOf)
    requires !(d.latestTag.Some? && d.latestTag.value.date != "")
    ensures PrintsAs(GenerateCitation(d, currentYear, accessYear, yearOf).year, currentYear)
  {
    IntToStringRoundTrip(currentYear);
  }

  /** A date that is not a date gives the year "NaN", not the current year. */
  lemma UnparsableDateYear(d: RepositoryData, currentYear: int, accessYear: int, yearOf: YearOf)
    requires d.latestTag.Some? && d.latestTag.value.date != ""
    requires yearOf(d.latestTag.value.date).None?
    ensures GenerateCitation(d, currentYear, accessYear, yearOf).year == "NaN"
  {
  }

  /** The version is the latest tag's name, and "latest" exactly when there is no named
      tag (or the tag itself is called "latest"). */
  lemma VersionRule(d: RepositoryData, currentYear: int, accessYear: int, yearOf: YearOf)
    ensures
      var c := GenerateCitation(d, currentYear, accessYear, yearOf);
      (d.latestTag.Some? && d.latestTag.value.name != "" ==> c.version == d.latestTag.value.name) &&
      (c.version == "latest" <==>
        (d.latestTag.None? || d.latestTag.value.name == "" || d.latestTag.value.name == "latest"))
  {
  }
}

/** The citation of a concrete repository. */
module CitationExamples {
  import opened Optional
  import opened Text
  import opened Types
  import opened CitationFormat

  /** A GitHub repository "bar/Foo" whose latest tag "v1.2.0" is dated in 2023: the
      key is "bar2023Foo" and the entry is the template filled with those fields. */
  lemma TaggedGitHubExample(d: RepositoryData, currentYear: int, accessYear: int, yearOf: YearOf)
    requires d == RepositoryData("Foo", "", "https://github.com/bar/Foo", true,
                                 Some(TagInfo("v1.2.0", "2023-05-01")), "bar")
    requires yearOf("2023-05-01") == Some(2023)
    ensures
      var c := GenerateCitation(d, currentYear, accessYear, yearOf);
      c.key == "bar2023Foo" && c.year == "2023" && c.version == "v1.2.0" &&
      c.publisher == "GitHub" && c.title == "Foo" && c.author == "bar" &&
      c.bibtexString == Join(
        [ "@misc{" + "bar2023Foo" + ",",
          "  author = {" + "bar" + "},",
          "  title = {{" + "Foo" + "}},",
          "  howpublished = {\\url{" + "https://github.com/bar/Foo" + "}},",
          "  year = {" + "2023" + "},",
          "  note = {" + "GitHub" + " Repository, version {" + "v1.2.0" + "}, accessed " +
            IntToString(accessYear) + "}",
          "}" ], '\n')
  {
    assert IntToString(2023) == "2023";
    assert "bar" + "2023" + "Foo" == "bar2023Foo";
  }
}

=== FILE: fetch.dfy ===
/** Turning a repository reference into repository facts. The HTTP requests are not
    modelled: their answers arrive as records, and the one request whose answer depends
    on the chosen tag (the GitHub commit lookup) is a function parameter. */
module Fetch {
  import opened Optional
  import opened Types
  import opened RepoUrl
  import opened LatestTag
  import opened Versions

  /** The message thrown for a reference no pattern recognises. */
  const InvalidUrlMessage := "Invalid repository URL format"

  /** The default GitLab host. */
  const DefaultGitLab := "gitlab.com"

  /** Which API is asked, and for which project. */
  datatype Request =
    | GitHubRequest(owner: string, repo: string)
    | GitLabRequest(owner: string, repo: string, instance: string)

  /** The dispatch of a reference: GitHub or a GitLab instance, or the format error. */
  function PlanFetch(url: string): (r: Result<Request, string>)
    ensures r.Failure? <==> Parse(url).None?
    ensures r.Failure? ==> r.error == InvalidUrlMessage
    ensures r.Success? ==> r.value.owner == Parse(url).value.owner && r.value.repo == Parse(url).value.repo
    ensures r.Success? ==> (r.value.GitHubRequest? <==> Parse(url).value.isGitHub)
    ensures r.Success? && r.value.GitLabRequest? ==> Parse(url).value.gitlabInstance == Some(r.value.instance)
    ensures r.Success? && r.value.GitLabRequest? ==> |r.value.instance| >= 7 && r.value.instance[..7] == "gitlab."
  {
    match Parse(url)
    case None => Failure(InvalidUrlMessage)
    case Some(p) =>
      if p.isGitHub then Success(GitHubRequest(p.owner, p.repo))
      else Success(GitLabRequest(p.owner, p.repo, p.gitlabInstance.GetOr(DefaultGitLab)))
  }

  /** The project fields of an API answer; `description` may be null. */
  datatype ProjectRecord = ProjectRecord(name: string, description: Option<string>, url: string, owner: string)

  /** A GitHub tag: its name and the API address of its commit. */
  datatype GitHubTag = GitHubTag(name: string, commitUrl: string)

  /** A GitLab tag: its name and its commit's creation date. */
  datatype GitLabTag = GitLabTag(name: string, createdAt: string)

  /** The names of a tag list, in order. */
  function TagNames<T>(tags: seq<T>, nameOf: T -> string): (names: seq<string>)
    ensures |names| == |tags| && forall k :: 0 <= k < |tags| ==> names[k] == nameOf(tags[k])
  {
    seq(|tags|, k requires 0 <= k < |tags| => nameOf(tags[k]))
  }

  function GitHubTagName(t: GitHubTag): string {
    t.name
  }

  function GitLabTagName(t: GitLabTag): string {
    t.name
  }

  /** A null or empty description becomes the empty text. */
  function Description(d: Option<string>): (s: string)
    ensures d.Some? ==> s == d.value
    ensures d.None? ==> s == ""
  {
    d.GetOr("")
  }

  /** The error a failed GitHub fetch is reported with. */
  const GitHubFailure := "Failed to fetch GitHub repository information"

  /** The error a failed GitLab fetch is reported with, naming the instance asked. */
  function GitLabFailure(instance: string): (m: string)
    ensures |m| > |instance| && m[|m| - |instance|..] == instance
  {
    "Failed to fetch GitLab repository information from " + instance
  }

  /** `k` is a tag the selection may choose: an index of the list, and the latest tag
      whenever the version comparator is consistent on the list. */
  predicate Chosen(names: seq<string>, k: int) {
    0 <= k < |names| && (ConsistentOn(names, CompareVersions) ==> IsLatest(names, CompareVersions, k))
  }

  /** Repository facts from GitHub's answers. The latest tag is chosen among `tags` and
      dated by its commit, which `commitDate` looks up from the commit address. The date
      is logged in ISO form, which throws for a text that is not a date; the fetch then
      fails with its own error. `chosen` is the index of the tag the selection chose. */
  method GitHubRepositoryData(project: ProjectRecord, tags: seq<GitHubTag>, commitDate: string -> string,
                              yearOf: YearOf)
    returns (r: Result<RepositoryData, string>, chosen: Option<nat>)
    ensures chosen.None? <==> |tags| == 0
    ensures chosen.Some? ==> chosen.value < |tags| && Chosen(TagNames(tags, GitHubTagName), chosen.value)
    ensures r.Failure? <==> chosen.Some? && yearOf(commitDate(tags[chosen.value].commitUrl)).None?
    ensures r.Failure? ==> r.error == GitHubFailure
    ensures r.Success? ==>
      r.value.name == project.name && r.value.url == project.url && r.value.owner == project.owner &&
      r.value.description == Description(project.description) && r.value.isGitHub &&
      (r.value.latestTag.None? <==> chosen.None?)
    ensures r.Success? && chosen.Some? ==>
      r.value.latestTag == Some(TagInfo(tags[chosen.value].name, commitDate(tags[chosen.value].commitUrl)))
  {
    chosen := LatestByVersion(TagNames(tags, GitHubTagName));
    var latest: Option<TagInfo> := None;
    if chosen.Some? {
      var t := tags[chosen.value];
      var date := commitDate(t.commitUrl);
      if yearOf(date).None? {
        return Failure(GitHubFailure), chosen;
      }
      latest := Some(TagInfo(t.name, date));
    }
    r := Success(RepositoryData(project.name, Description(project.description), project.url, true, latest,
                                project.owner));
  }

  /** Repository facts from the answers of the GitLab instance `instance`. The latest tag
      is dated by the creation date GitLab reports with it; as for GitHub, a date that is
      not a date makes the logging throw and the fetch fail. */
  method GitLabRepositoryData(project: ProjectRecord, tags: seq<GitLabTag>, instance: string, yearOf: YearOf)
    returns (r: Result<RepositoryData, string>, chosen: Option<nat>)
    ensures chosen.None? <==> |tags| == 0
    ensures chosen.Some? ==> chosen.value < |tags| && Chosen(TagNames(tags, GitLabTagName), chosen.value)
    ensures r.Failure? <==> chosen.Some? && yearOf(tags[chosen.value].createdAt).None?
    ensures r.Failure? ==> r.error == GitLabFailure(instance)
    ensures r.Success? ==>
      r.value.name == project.name && r.value.url == project.url && r.value.owner == project.owner &&
      r.value.description == Description(project.description) && !r.value.isGitHub &&
      (r.value.latestTag.None? <==> chosen.None?)
    ensures r.Success? && chosen.Some? ==>
      r.value.latestTag == Some(TagInfo(tags[chosen.value].name, tags[chosen.value].createdAt))
  {
    chosen := LatestByVersion(TagNames(tags, GitLabTagName));
    var latest: Option<TagInfo> := None;
    if chosen.Some? {
      var t := tags[chosen.value];
      if yearOf(t.createdAt).None? {
        return Failure(GitLabFailure(instance)), chosen;
      }
      latest := Some(TagInfo(t.name, t.createdAt));
    }
    r := Success(RepositoryData(project.name, Description(project.description), project.url, false, latest,
                                project.owner));
  }
}

/** Which request a reference leads to. The concrete references are parameters pinned to
    their text by a `requires`, as in the parser examples, so that the solver does not
    unfold the parser on a literal. */
module FetchProps {
  import opened Optional
  import opened RepoUrl
  import RepoUrlProps
  import RepoUrlExamples
  import opened Fetch
  import opened LatestTag
  import opened Versions

  /** On a list the version comparator orders consistently, the selection can choose
      only one tag: the latest one. */
  lemma ChosenUnique(names: seq<string>, k: int, m: int)
    requires ConsistentOn(names, CompareVersions)
    requires Chosen(names, k) && Chosen(names, m)
    ensures k == m
  {
    VersionComparatorAntisymmetric();
    LatestUnique(names, CompareVersions, k, m);
  }

  /** A reference without a slash is refused with the format error before any request
      is made. */
  lemma NoSlashNoRequest(url: string)
    requires '/' !in url
    ensures PlanFetch(url) == Failure(InvalidUrlMessage)
  {
    RepoUrlProps.ParseNeedsSlash(url);
  }

  /** A self-hosted GitLab reference asks that instance's API for the owner and
      repository written in it. */
  lemma SelfHostedRequest(s: string)
    requires s == "gitlab." + "tails.net" + "/" + "team" + "/" + "proj"
    ensures PlanFetch(s) == Success(GitLabRequest("team", "proj", "gitlab.tails.net"))
  {
    RepoUrlExamples.SelfHostedExample(s);
  }

  /** A gitlab.com reference asks gitlab.com for the project named by the repository
      segment twice over: the namespace segment never reaches the request. */
  lemma GitLabComRequest(s: string)
    requires s == "https://" + "gitlab.com/" + "gitlab-org" + "/" + "gitlab"
    ensures PlanFetch(s) == Success(GitLabRequest("gitlab", "gitlab", "gitlab.com"))
  {
    RepoUrlExamples.GitLabComExample(s);
  }
}

=== FILE: latest_tag.dfy ===
/** Choosing the latest tag. `repoService.ts` sorts the tag list with the version
    comparator and takes the first element; here that is a single scan that keeps a
    candidate and replaces it only with a strictly newer tag. With a comparator that is
    consistent on the list this is exactly the element a stable sort puts first. The scan is written for any
    antisymmetric comparator and then used with the version comparator. */
module LatestTag {
  import opened Optional
  import opened Versions
  import opened VersionsProps

  /** A sort comparator on tag names: negative puts the first name ahead. */
  type Comparator = (string, string) -> int

  /** Swapping the arguments negates the answer. */
  ghost predicate Antisymmetric(cmp: Comparator) {
    forall a, b :: cmp(b, a) == -cmp(a, b)
  }

  /** The version comparator is antisymmetric. */
  lemma VersionComparatorAntisymmetric()
    ensures Antisymmetric(CompareVersions)
  {
    forall a, b ensures CompareVersions(b, a) == -CompareVersions(a, b) {
      CompareVersionsAntisymmetric(a, b);
    }
  }

  /** `a` is at least as new as `b`: the comparator does not put `b` ahead of `a`. */
  predicate NoOlder(cmp: Comparator, a: string, b: string) {
    cmp(a, b) <= 0
  }

  /** `a` is strictly newer than `b`: the comparator puts `a` ahead of `b`. */
  predicate Ahead(cmp: Comparator, a: string, b: string) {
    cmp(a, b) < 0
  }

  /** On the tags of `names` "at least as new" is transitive, as sorting assumes of its
      comparator. */
  predicate ConsistentOn(names: seq<string>, cmp: Comparator) {
    forall i, j, k ::
      0 <= i < |names| && 0 <= j < |names| && 0 <= k < |names| &&
      NoOlder(cmp, names[i], names[j]) && NoOlder(cmp, names[j], names[k])
      ==> NoOlder(cmp, names[i], names[k])
  }

  /** Index `k` holds the latest tag: no tag is newer, and every earlier tag is strictly
      older (so a stable sort keeps it ahead of any tag that ties with it). */
  predicate IsLatest(names: seq<string>, cmp: Comparator, k: nat) {
    k < |names| &&
    (forall j :: 0 <= j < |names| ==> NoOlder(cmp, names[k], names[j])) &&
    (forall j :: 0 <= j < k ==> Ahead(cmp, names[k], names[j]))
  }

  /** At most one index holds the latest tag, for any antisymmetric comparator. */
  lemma LatestUnique(names: seq<string>, cmp: Comparator, k: nat, m: nat)
    requires Antisymmetric(cmp)
    requires IsLatest(names, cmp, k) && IsLatest(names, cmp, m)
    ensures k == m
  {
    assert cmp(names[k], names[m]) == -cmp(names[m], names[k]);
    assert NoOlder(cmp, names[k], names[m]) && NoOlder(cmp, names[m], names[k]);
  }

  /** Strictly newer followed by at least as new is strictly newer, on a consistent list. */
  lemma AheadThenNoOlder(names: seq<string>, cmp: Comparator, a: nat, b: nat, c: nat)
    requires Antisymmetric(cmp) && ConsistentOn(names, cmp)
    requires a < |names| && b < |names| && c < |names|
    requires Ahead(cmp, names[a], names[b]) && NoOlder(cmp, names[b], names[c])
    ensures Ahead(cmp, names[a], names[c])
  {
  }

  /** The scan's invariant after the first `i` tags with candidate `b`: the candidate is
      at least as new as each of them and strictly newer than each tag before it. */
  predicate Leading(names: seq<string>, cmp: Comparator, i: nat, b: nat)
    requires b < i <= |names|
  {
    (forall j :: 0 <= j < i ==> NoOlder(cmp, names[b], names[j])) &&
    (forall j :: 0 <= j < b ==> Ahead(cmp, names[b], names[j]))
  }

  /** The index of the latest tag, `None` for an empty list. The scan replaces its
      candidate only by a strictly newer tag. */
  method SelectLatest(names: seq<string>, cmp: Comparator) returns (best: Option<nat>)
    requires Antisymmetric(cmp)
    ensures best.None? <==> |names| == 0
    ensures best.Some? ==> best.value < |names|
    ensures best.Some? && ConsistentOn(names, cmp) ==> IsLatest(names, cmp, best.value)
  {
    if |names| == 0 {
      return None;
    }
    var b := 0;
    assert cmp(names[0], names[0]) == -cmp(names[0], names[0]);
    for i := 1 to |names|
      invariant b < i
      invariant ConsistentOn(names, cmp) ==> Leading(names, cmp, i, b)
    {
      if Ahead(cmp, names[i], names[b]) {
        if ConsistentOn(names, cmp) {
          forall j | 0 <= j < i
            ensures Ahead(cmp, names[i], names[j])
          {
            AheadThenNoOlder(names, cmp, i, b, j);
          }
          assert cmp(names[i], names[i]) == -cmp(names[i], names[i]);
        }
        b := i;
      } else {
        assert cmp(names[b], names[i]) == -cmp(names[i], names[b]);
      }
    }
    return Some(b);
  }

  /** The latest tag by the version comparator. */
  method LatestByVersion(names: seq<string>) returns (best: Option<nat>)
    ensures best.None? <==> |names| == 0
    ensures best.Some? ==> best.value < |names|
    ensures best.Some? && ConsistentOn(names, CompareVersions) ==>
      IsLatest(names, CompareVersions, best.value)
  {
    VersionComparatorAntisymmetric();
    best := SelectLatest(names, CompareVersions);
  }
}

/** The scan on the tags that defeat the comparator. */
module LatestTagExamples {
  import opened Versions
  import opened VersionsExamples
  import opened LatestTag

  /** The cycle of `NotTransitive` is not a consistent list, and no index of it holds a
      latest tag: whichever tag the scan returns depends on the order of the list. */
  lemma CycleHasNoLatest()
    ensures !ConsistentOn(["1.3", "1.p", "1.alpha"], CompareVersions)
    ensures forall k :: !IsLatest(["1.3", "1.p", "1.alpha"], CompareVersions, k)
  {
    var names := ["1.3", "1.p", "1.alpha"];
    NotTransitive(names[0], names[1], names[2]);
    assert NoOlder(CompareVersions, names[0], names[1]);
    assert NoOlder(CompareVersions, names[1], names[2]);
    assert !NoOlder(CompareVersions, names[0], names[2]) by {
      VersionsProps.CompareVersionsAntisymmetric(names[2], names[0]);
    }
    forall k ensures !IsLatest(names, CompareVersions, k) {
      if IsLatest(names, CompareVersions, k) {
        if k == 1 {
          VersionsProps.CompareVersionsAntisymmetric(names[0], names[1]);
        } else if k == 2 {
          VersionsProps.CompareVersionsAntisymmetric(names[1], names[2]);
        }
      }
    }
  }
}

=== FILE: optional.dfy ===
/** Option and Result: `undefined`/`null` results and thrown errors of the modelled code. */
module Optional {

  /** A value that may be absent (JavaScript `undefined` or `null`). */
  datatype Option<+T> = None | Some(value: T) {

    /** The wrapped value, or `default` when absent. */
    function GetOr(default: T): T {
      match this
      case Some(v) => v
      case None => default
    }
  }

  /** Either a value or an error message (a thrown `Error`). */
  datatype Result<+R, +E> = Success(value: R) | Failure(error: E)

  /** The first index from `lo` up to `hi` at which `f` gives a value: a leftmost
      search over positions. */
  function FirstSome<T>(f: nat -> Option<T>, lo: nat, hi: nat): (r: Option<nat>)
    requires lo <= hi + 1
    ensures r.Some? ==> lo <= r.value <= hi && f(r.value).Some?
    ensures r.Some? ==> (forall j: nat :: lo <= j < r.value ==> f(j).None?)
    ensures r.None? ==> (forall j: nat :: lo <= j <= hi ==> f(j).None?)
    decreases hi + 1 - lo
  {
    if lo == hi + 1 then None
    else if f(lo).Some? then Some(lo)
    else FirstSome(f, lo + 1, hi)
  }
}

=== FILE: repo_url.dfy ===
/** The repository-reference parser: an ordered list of six patterns, first match wins,
    turned into owner, repository, host and (for GitLab) instance domain. */
module RepoUrl {
  import opened Optional
  import opened Text

  /** The parser's answer; `gitlabInstance` is absent for GitHub. */
  datatype ParsedUrl = ParsedUrl(owner: string, repo: string, isGitHub: bool, gitlabInstance: Option<string>)

  /** The result array of a regular-expression match: index 0 is the whole match,
      index k the k-th capture group, `None` a group that took no part in the match. */
  type Groups = seq<Option<string>>

  /** The six patterns, in the order they are tried. */
  datatype Pattern =
    | GitHubHost      // unanchored: "github.com/" then two slash-free segments
    | GitHubBare      // whole input: two slash-free segments around one slash
    | GitHubFullUrl   // anchored: optional http(s) scheme, then "github.com/" and two segments
    | GitLabHost      // unanchored: "gitlab.com/" then two segments
    | GitLabFullUrl   // anchored: optional scheme, then "gitlab.com/" and two segments
    | GitLabInstance  // anchored: optional scheme, "gitlab.", label, ".", rest of host, then two segments

  const GitHubPatterns: seq<Pattern> := [GitHubHost, GitHubBare, GitHubFullUrl]
  const GitLabPatterns: seq<Pattern> := [GitLabHost, GitLabFullUrl, GitLabInstance]

  const Slash: set<char> := {'/'}

  /** Two segments `first/second` found greedily by two slash-free runs; `end` is
      where the second run stops. */
  datatype Pair = Pair(first: string, second: string, end: nat)

  /** The declarative shape a two-segment match at `i` has: `o/r` with both sides
      non-empty and slash-free, followed by the end of the input or by a slash. */
  predicate PairShape(s: string, i: nat, o: string, r: string) {
    && |o| > 0 && |r| > 0 && '/' !in o && '/' !in r
    && i + |o| + 1 + |r| <= |s|
    && s[i..i + |o| + 1 + |r|] == o + "/" + r
    && (i + |o| + 1 + |r| == |s| || s[i + |o| + 1 + |r|] == '/')
  }

  /** The segments `([^/]+)/([^/]+)` capture when matched greedily at `i`. */
  function SegmentPairAt(s: string, i: nat): (r: Option<Pair>)
    requires i <= |s|
    ensures r.Some? ==> |r.value.first| > 0 && |r.value.second| > 0
    ensures r.Some? ==> r.value.end == i + |r.value.first| + 1 + |r.value.second| <= |s|
    ensures r.Some? ==> s[i + |r.value.first|] == '/'
  {
    var k1 := FirstIn(s, Slash, i);
    if k1 == i || k1 == |s| then None
    else
      var k2 := FirstIn(s, Slash, k1 + 1);
      if k2 == k1 + 1 then None
      else Some(Pair(s[i..k1], s[k1 + 1..k2], k2))
  }

  /** What the greedy match finds has the declarative shape. */
  lemma SegmentPairAtSound(s: string, i: nat)
    requires i <= |s|
    ensures SegmentPairAt(s, i).Some? ==>
      PairShape(s, i, SegmentPairAt(s, i).value.first, SegmentPairAt(s, i).value.second)
  {
    if SegmentPairAt(s, i).Some? {
      var k1 := FirstIn(s, Slash, i);
      var k2 := FirstIn(s, Slash, k1 + 1);
      NoSlashIn(s, i, k1);
      NoSlashIn(s, k1 + 1, k2);
      SliceAt(s, i, k1, k2);
    }
  }

  /** A run the slash search skipped holds no slash. */
  lemma NoSlashIn(s: string, i: nat, k: nat)
    requires i <= k <= |s| && forall j :: i <= j < k ==> s[j] !in Slash
    ensures '/' !in s[i..k]
  {
    forall x | 0 <= x < k - i ensures s[i..k][x] != '/' {
      assert s[i..k][x] == s[i + x];
    }
  }

  /** A slash-free run `o` at `i` that ends at the end of the input or at a slash is
      exactly what the slash search from `i` skips. */
  lemma SlashRun(s: string, i: nat, o: string)
    requires i + |o| <= |s| && s[i..i + |o|] == o && '/' !in o
    requires i + |o| == |s| || s[i + |o|] == '/'
    ensures FirstIn(s, Slash, i) == i + |o|
  {
    forall j | i <= j < i + |o| ensures s[j] !in Slash {
      assert s[j] == s[i..i + |o|][j - i];
    }
    FirstInAt(s, Slash, i, i + |o|);
  }

  /** The greedy match is the only one: any `o/r` of the right shape at `i` is what
      `SegmentPairAt` finds. */
  lemma SegmentPairAtComplete(s: string, i: nat, o: string, r: string)
    requires i <= |s| && PairShape(s, i, o, r)
    ensures SegmentPairAt(s, i) == Some(Pair(o, r, i + |o| + 1 + |r|))
  {
    SliceAroundSlash(s, i, o, r);
    SlashRun(s, i, o);
    SlashRun(s, i + |o| + 1, r);
  }

  /** The host pattern `host/([^/]+)/([^/]+)` tried at position `j`; `lit` is the
      host with its slash, such as "github.com/". */
  function HostPairAt(s: string, lit: string, j: nat): (r: Option<Pair>)
    ensures r.Some? ==> HasPrefixAt(s, j, lit)
  {
    if HasPrefixAt(s, j, lit) then SegmentPairAt(s, j + |lit|) else None
  }

  /** The host pattern as a function of the position it is tried at. */
  function HostPairs(s: string, lit: string): nat -> Option<Pair> {
    (j: nat) => HostPairAt(s, lit, j)
  }

  /** Leftmost-match search of an unanchored host pattern: the first position at which
      it matches, with its segments. */
  function FirstHostMatch(s: string, lit: string): (r: Option<(nat, Pair)>)
    ensures r.Some? ==> r.value.0 <= |s| && HostPairAt(s, lit, r.value.0) == Some(r.value.1)
  {
    match FirstSome(HostPairs(s, lit), 0, |s|)
    case Some(k) => Some((k, HostPairAt(s, lit, k).value))
    case None => None
  }

  /** The search finds the leftmost match: the pattern matches at no earlier position,
      and when the search fails it matches nowhere. */
  lemma FirstHostMatchLeftmost(s: string, lit: string)
    ensures FirstHostMatch(s, lit).Some? ==>
      forall j: nat :: j < FirstHostMatch(s, lit).value.0 ==> HostPairAt(s, lit, j).None?
    ensures FirstHostMatch(s, lit).None? ==>
      forall j: nat :: j <= |s| ==> HostPairAt(s, lit, j).None?
  {
    forall j: nat ensures HostPairs(s, lit)(j) == HostPairAt(s, lit, j) {
    }
  }

  /** Length of the optional `(https?://)?` group at the start of the input. The group
      is greedy and the rest of each anchored pattern starts with a letter `g`, so
      giving the group up never helps: its length is fixed by the input alone. */
  function SchemeLength(s: string): (n: nat)
    ensures n <= |s|
    ensures n == 0 || n == 7 || n == 8
  {
    if HasPrefixAt(s, 0, "https://") then 8
    else if HasPrefixAt(s, 0, "http://") then 7
    else 0
  }

  /** The scheme group's capture. */
  function SchemeGroup(s: string): Option<string> {
    var n := SchemeLength(s);
    if n == 0 then None else Some(s[..n])
  }

  /** Greatest `d` with `1 <= d < n` and `h[d] == '.'`. */
  function LastDotBelow(h: string, n: nat): (r: Option<nat>)
    requires n <= |h|
    ensures r.Some? ==> 1 <= r.value < n && h[r.value] == '.'
    ensures r.Some? ==> forall d :: r.value < d < n ==> h[d] != '.'
    ensures r.None? ==> forall d :: 1 <= d < n ==> h[d] != '.'
    decreases n
  {
    if n <= 1 then None
    else if h[n - 1] == '.' then Some(n - 1)
    else LastDotBelow(h, n - 1)
  }

  /** Where the greedy `([^/]+)\.([^/]+)` splits a slash-free host run `h`: at the last
      dot that leaves both sides non-empty. */
  function HostSplit(h: string): (r: Option<nat>)
    ensures r.Some? ==> 1 <= r.value && r.value + 1 < |h| && h[r.value] == '.'
    ensures r.Some? ==> forall d :: r.value < d && d + 1 < |h| ==> h[d] != '.'
    ensures r.None? ==> forall d :: 1 <= d && d + 1 < |h| ==> h[d] != '.'
  {
    if |h| < 2 then None else LastDotBelow(h, |h| - 1)
  }

  /** Number of capture groups of each pattern. */
  function GroupCount(p: Pattern): nat {
    match p
    case GitHubHost => 2
    case GitHubBare => 2
    case GitLabHost => 2
    case GitHubFullUrl => 3
    case GitLabFullUrl => 3
    case GitLabInstance => 5
  }

  /** Matches pattern `p` against `s`: `None` when it does not match, else its groups.
      Every group other than the scheme group captures a non-empty text. */
  function Exec(p: Pattern, s: string): (m: Option<Groups>)
    ensures m.Some? ==> |m.value| == GroupCount(p) + 1
    ensures m.Some? ==> forall k :: 0 <= k < |m.value| && !(k == 1 && GroupCount(p) > 2) ==>
      m.value[k].Some? && m.value[k].value != ""
  {
    match p
    case GitHubHost => HostExec(s, "github.com/")
    case GitLabHost => HostExec(s, "gitlab.com/")
    case GitHubFullUrl => FullUrlExec(s, "github.com/")
    case GitLabFullUrl => FullUrlExec(s, "gitlab.com/")
    case GitHubBare => BareExec(s)
    case GitLabInstance => InstanceExec(s)
  }

  /** The whole input as `owner/repo`. */
  function BareExec(s: string): (m: Option<Groups>)
    ensures m.Some? ==> |m.value| == 3
    ensures m.Some? ==> forall k :: 0 <= k < 3 ==> m.value[k].Some? && m.value[k].value != ""
  {
    match SegmentPairAt(s, 0)
    case Some(Pair(a, b, e)) => if e == |s| then Some([Some(s), Some(a), Some(b)]) else None
    case None => None
  }

  function HostExec(s: string, lit: string): (m: Option<Groups>)
    ensures m.Some? ==> |m.value| == 3
    ensures m.Some? ==> forall k :: 0 <= k < 3 ==> m.value[k].Some? && m.value[k].value != ""
  {
    match FirstHostMatch(s, lit)
    case Some((j, Pair(o, r, e))) => Some([Some(s[j..e]), Some(o), Some(r)])
    case None => None
  }

  function FullUrlExec(s: string, lit: string): (m: Option<Groups>)
    ensures m.Some? ==> |m.value| == 4
    ensures m.Some? ==> forall k :: 0 <= k < 4 && k != 1 ==> m.value[k].Some? && m.value[k].value != ""
  {
    match HostPairAt(s, lit, SchemeLength(s))
    case Some(Pair(o, r, e)) => Some([Some(s[..e]), SchemeGroup(s), Some(o), Some(r)])
    case None => None
  }

  function InstanceExec(s: string): (m: Option<Groups>)
    ensures m.Some? ==> |m.value| == 6
    ensures m.Some? ==> forall k :: 0 <= k < 6 && k != 1 ==> m.value[k].Some? && m.value[k].value != ""
  {
    var n := SchemeLength(s);
    if !HasPrefixAt(s, n, "gitlab.") then None
    else InstanceAfterHost(s, n, FirstIn(s, Slash, n + 7))
  }

  /** The rest of the self-hosted pattern once the host run that follows "gitlab." at
      `n` is known to stop at `k`: the run must split at a dot, and two segments must
      follow the slash at `k`. */
  function InstanceAfterHost(s: string, n: nat, k: nat): (m: Option<Groups>)
    requires n + 7 <= k <= |s|
    ensures m.Some? ==> |m.value| == 6
    ensures m.Some? ==> forall k :: 0 <= k < 6 && k != 1 ==> m.value[k].Some? && m.value[k].value != ""
  {
    var h := s[n + 7..k];
    match HostSplit(h)
    case None => None
    case Some(d) =>
      if k == |s| then None
      else
        match SegmentPairAt(s, k + 1)
        case None => None
        case Some(Pair(o, r, e)) =>
          Some([Some(s[..e]), SchemeGroup(s), Some(h[..d]), Some(h[d + 1..]), Some(o), Some(r)])
  }

  /** `match[k]`: reading past the end of the array gives `undefined`. */
  function Group(m: Groups, k: nat): Option<string> {
    if k < |m| then m[k] else None
  }

  /** JavaScript `a || b` on captures: `a` when it is a non-empty string, else `b`. */
  function OrElse(a: Option<string>, b: Option<string>): Option<string> {
    if a.Some? && a.value != "" then a else b
  }

  /** The text of a capture; every capture read below is present (see `Exec`). */
  function Captured(g: Option<string>): string {
    g.GetOr("")
  }

  /** A capture that took part in the match with a non-empty text. */
  predicate Filled(g: Option<string>) {
    g.Some? && g.value != ""
  }

  /** A GitHub match read as in the source: the owner is `match[1] || match[2]`, the
      repository `match[3] || match[2]` minus one ".git". */
  function GitHubResult(m: Groups): (p: ParsedUrl)
    requires Filled(Group(m, 1)) || Filled(Group(m, 2))
    ensures p.owner != "" && p.isGitHub && p.gitlabInstance.None?
  {
    ParsedUrl(
      Captured(OrElse(Group(m, 1), Group(m, 2))),
      StripGit(Captured(OrElse(Group(m, 3), Group(m, 2)))),
      true,
      None)
  }

  /** A gitlab.com match: the owner is `match[2] || match[1]`, the repository
      `match[3] || match[2]` minus one ".git", the instance "gitlab.com". */
  function GitLabComResult(m: Groups): (p: ParsedUrl)
    requires Filled(Group(m, 2)) || Filled(Group(m, 1))
    ensures p.owner != "" && !p.isGitHub && p.gitlabInstance.Some?
    ensures HasPrefixAt(p.gitlabInstance.value, 0, "gitlab.")
  {
    ParsedUrl(
      Captured(OrElse(Group(m, 2), Group(m, 1))),
      StripGit(Captured(OrElse(Group(m, 3), Group(m, 2)))),
      false,
      Some("gitlab.com"))
  }

  /** A self-hosted match: owner `match[4]`, repository `match[5]` minus one ".git",
      instance "gitlab." + `match[2]` + "." + `match[3]`. */
  function InstanceResult(m: Groups): (p: ParsedUrl)
    requires Filled(Group(m, 4))
    ensures p.owner != "" && !p.isGitHub && p.gitlabInstance.Some?
    ensures HasPrefixAt(p.gitlabInstance.value, 0, "gitlab.")
  {
    var instance := "gitlab." + Captured(Group(m, 2)) + "." + Captured(Group(m, 3));
    assert instance[..7] == "gitlab.";
    ParsedUrl(Captured(Group(m, 4)), StripGit(Captured(Group(m, 5))), false, Some(instance))
  }

  /** The GitHub patterns from index `i` on; the first that matches decides. */
  function TryGitHub(url: string, i: nat): (r: Option<ParsedUrl>)
    ensures r.Some? ==> r.value.owner != "" && r.value.isGitHub && r.value.gitlabInstance.None?
    decreases |GitHubPatterns| - i
  {
    if i >= |GitHubPatterns| then None
    else
      match Exec(GitHubPatterns[i], url)
      case Some(m) => Some(GitHubResult(m))
      case None => TryGitHub(url, i + 1)
  }

  /** The GitLab patterns from index `i` on. The first two are read as gitlab.com
      references, the third as a self-hosted instance. */
  function TryGitLab(url: string, i: nat): (r: Option<ParsedUrl>)
    ensures r.Some? ==> r.value.owner != "" && !r.value.isGitHub && r.value.gitlabInstance.Some?
    ensures r.Some? ==> HasPrefixAt(r.value.gitlabInstance.value, 0, "gitlab.")
    decreases |GitLabPatterns| - i
  {
    if i >= |GitLabPatterns| then None
    else
      match Exec(GitLabPatterns[i], url)
      case Some(m) => if i < 2 then Some(GitLabComResult(m)) else Some(InstanceResult(m))
      case None => TryGitLab(url, i + 1)
  }

  /** Parses a repository reference; `None` when no pattern matches. The owner is
      never empty, GitHub results carry no instance and GitLab results always carry
      one that starts with "gitlab.". */
  function Parse(url: string): (r: Option<ParsedUrl>)
    ensures r.Some? ==> r.value.owner != ""
    ensures r.Some? ==> (r.value.isGitHub <==> r.value.gitlabInstance.None?)
    ensures r.Some? && r.value.gitlabInstance.Some? ==> HasPrefixAt(r.value.gitlabInstance.value, 0, "gitlab.")
  {
    match TryGitHub(url, 0)
    case Some(r) => Some(r)
    case None => TryGitLab(url, 0)
  }
}

=== FILE: repo_url_props.dfy ===
/** What the repository-reference parser accepts and what it returns for each accepted shape. */
module RepoUrlProps {
  import opened Optional
  import opened Text
  import opened RepoUrl

  /** `h` has a dot with at least one character on each side. */
  predicate HasInteriorDot(h: string) {
    exists d :: 1 <= d && d + 1 < |h| && h[d] == '.'
  }

  /** The leftmost-match search stops at the first position where the pattern matches. */
  lemma FirstHostMatchAt(s: string, lit: string, m: nat)
    requires m <= |s|
    requires HostPairAt(s, lit, m).Some?
    requires forall j: nat :: j < m ==> HostPairAt(s, lit, j).None?
    ensures FirstHostMatch(s, lit) == Some((m, HostPairAt(s, lit, m).value))
  {
    FirstHostMatchLeftmost(s, lit);
  }

  /** In `a/b` with slash-free sides the only slash is the one between them. */
  lemma OneSlash(s: string, a: string, b: string)
    requires s == a + "/" + b && '/' !in a && '/' !in b
    ensures forall i :: 0 <= i < |s| && s[i] == '/' ==> i == |a|
  {
  }

  /** A bare match has its only slash right after the first segment. */
  lemma BareOneSlash(s: string)
    requires BareExec(s).Some?
    ensures forall i :: 0 <= i < |s| && s[i] == '/' ==> i == |SegmentPairAt(s, 0).value.first|
  {
    var pr := SegmentPairAt(s, 0).value;
    SegmentPairAtSound(s, 0);
    assert s == s[0..|s|] == pr.first + "/" + pr.second;
    OneSlash(s, pr.first, pr.second);
  }

  /** An input with two slashes is never read as a bare `owner/repo`. */
  lemma NotBare(s: string, i1: nat, i2: nat)
    requires i1 < i2 < |s| && s[i1] == '/' && s[i2] == '/'
    ensures BareExec(s).None?
  {
    if BareExec(s).Some? {
      BareOneSlash(s);
      assert false;
    }
  }

  /** A host pattern cannot match where the host and its slash do not occur. */
  lemma NoHostMatch(s: string, lit: string)
    requires Absent(s, lit)
    ensures HostExec(s, lit).None?
    ensures FullUrlExec(s, lit).None?
  {
    FirstHostMatchLeftmost(s, lit);
    assert HostPairAt(s, lit, SchemeLength(s)).None?;
  }

  /** The anchored full-URL patterns can never decide the result: wherever one of them
      matches, the unanchored pattern for the same host, tried before it, matches too. */
  lemma FullUrlPatternsNeverFire(s: string, lit: string)
    ensures FullUrlExec(s, lit).Some? ==> HostExec(s, lit).Some?
  {
    FirstHostMatchLeftmost(s, lit);
    if FullUrlExec(s, lit).Some? {
      assert HostPairAt(s, lit, SchemeLength(s)).Some?;
    }
  }

  /** A host literal whose character `lit[q]` appears nowhere before the last
      `|lit| - q` characters of the input can only occur at its very end, with no room
      left for the two segments: neither host pattern for it matches. */
  lemma HostOnlyAtEnd(s: string, lit: string, q: nat)
    requires q < |lit|
    requires forall i :: 0 <= i < |s| - (|lit| - q) ==> s[i] != lit[q]
    ensures HostExec(s, lit).None? && FullUrlExec(s, lit).None?
  {
    if HostExec(s, lit).Some? {
      var j := FirstHostMatch(s, lit).value.0;
      PrefixChar(s, j, lit, q);
      assert false;
    }
    FullUrlPatternsNeverFire(s, lit);
  }

  /** Where a host pattern matches, a slash separates its two segments. */
  lemma HostPairSlash(s: string, lit: string, j: nat)
    requires HostPairAt(s, lit, j).Some?
    ensures '/' in s
  {
    var i := j + |lit|;
    assert s[i + |SegmentPairAt(s, i).value.first|] == '/';
  }

  lemma HostExecNeedsSlash(s: string, lit: string)
    requires HostPairAt(s, lit, SchemeLength(s)).Some? || HostExec(s, lit).Some?
    ensures '/' in s
  {
    if HostPairAt(s, lit, SchemeLength(s)).Some? {
      HostPairSlash(s, lit, SchemeLength(s));
    } else {
      HostPairSlash(s, lit, FirstHostMatch(s, lit).value.0);
    }
  }

  lemma InstanceExecNeedsSlash(s: string)
    requires InstanceExec(s).Some?
    ensures '/' in s
  {
    var k := FirstIn(s, Slash, SchemeLength(s) + 7);
    assert s[k] == '/';
  }

  /** Every pattern needs at least one slash. */
  lemma ExecNeedsSlash(p: Pattern, s: string)
    requires Exec(p, s).Some?
    ensures '/' in s
  {
    match p
    case GitHubHost => HostExecNeedsSlash(s, "github.com/");
    case GitLabHost => HostExecNeedsSlash(s, "gitlab.com/");
    case GitHubFullUrl => HostExecNeedsSlash(s, "github.com/");
    case GitLabFullUrl => HostExecNeedsSlash(s, "gitlab.com/");
    case GitHubBare =>
      var pr := SegmentPairAt(s, 0).value;
      assert s[|pr.first|] == '/';
    case GitLabInstance => InstanceExecNeedsSlash(s);
  }

  /** The parser fails exactly when none of the six patterns matches. */
  lemma ParseFailsIffNoPatternMatches(s: string)
    ensures Parse(s).None? <==> forall p: Pattern :: Exec(p, s).None?
  {
    if Parse(s).None? {
      forall p: Pattern ensures Exec(p, s).None? {
        match p
        case GitHubHost => assert Exec(GitHubPatterns[0], s).None?;
        case GitHubBare => assert Exec(GitHubPatterns[1], s).None?;
        case GitHubFullUrl => assert Exec(GitHubPatterns[2], s).None?;
        case GitLabHost => assert Exec(GitLabPatterns[0], s).None?;
        case GitLabFullUrl => assert Exec(GitLabPatterns[1], s).None?;
        case GitLabInstance => assert Exec(GitLabPatterns[2], s).None?;
      }
    }
  }

  /** An input without a slash is rejected. */
  lemma ParseNeedsSlash(s: string)
    requires '/' !in s
    ensures Parse(s).None?
  {
    forall p: Pattern ensures Exec(p, s).None? {
      if Exec(p, s).Some? {
        ExecNeedsSlash(p, s);
      }
    }
    ParseFailsIffNoPatternMatches(s);
  }

  /** `lit/o/r` after a prefix `p`, where `lit` is a host followed by a slash: `lit`
      occurs at `|p|` and the segments `o` and `r` follow it in the shape the
      two-segment pattern needs. */
  lemma HostPieces(s: string, p: string, lit: string, o: string, r: string, t: string)
    requires s == p + lit + o + "/" + r + t
    requires |o| > 0 && |r| > 0 && '/' !in o && '/' !in r
    requires t == [] || t[0] == '/'
    ensures HasPrefixAt(s, |p|, lit)
    ensures PairShape(s, |p| + |lit|, o, r)
  {
    var i := |p| + |lit|;
    assert s == p + lit + (o + "/" + r + t);
    Middle(s, p, lit, o + "/" + r + t);
    assert s == (p + lit) + (o + "/" + r) + t;
    Middle(s, p + lit, o + "/" + r, t);
    if t != [] {
      assert s[i + |o| + 1 + |r|] == t[0];
    }
  }

  /** Where the host and its slash occur followed by two segments of the right shape,
      the host pattern matches with those segments. */
  lemma HostPairFound(s: string, lit: string, j: nat, o: string, r: string)
    requires HasPrefixAt(s, j, lit) && PairShape(s, j + |lit|, o, r)
    ensures HostPairAt(s, lit, j) == Some(Pair(o, r, j + |lit| + |o| + 1 + |r|))
  {
    SegmentPairAtComplete(s, j + |lit|, o, r);
  }

  /** The first occurrence of the host and its slash, if the host pattern matches
      there, decides what the unanchored host pattern captures. */
  lemma HostExecAt(s: string, lit: string, j: nat, pr: Pair)
    requires HostPairAt(s, lit, j) == Some(pr)
    requires NoOccurrenceBefore(s, lit, j)
    ensures HostExec(s, lit) == Some([Some(s[j..pr.end]), Some(pr.first), Some(pr.second)])
  {
    FirstHostMatchAt(s, lit, j);
  }

  /** A match of the GitHub host pattern decides the parse: owner and repository are
      its two segments. */
  lemma ParseByGitHubHost(s: string, whole: string, o: string, r: string)
    requires HostExec(s, "github.com/") == Some([Some(whole), Some(o), Some(r)]) && o != ""
    ensures Parse(s) == Some(ParsedUrl(o, StripGit(r), true, None))
  {
    assert Exec(GitHubPatterns[0], s) == HostExec(s, "github.com/");
  }

  /** With no GitHub pattern matching, a match of the gitlab.com host pattern decides
      the parse, and both the owner and the repository are read from the second
      segment. */
  lemma ParseByGitLabHost(s: string, whole: string, a: string, b: string)
    requires TryGitHub(s, 0).None?
    requires HostExec(s, "gitlab.com/") == Some([Some(whole), Some(a), Some(b)]) && b != ""
    ensures Parse(s) == Some(ParsedUrl(b, StripGit(b), false, Some("gitlab.com")))
  {
    assert Exec(GitLabPatterns[0], s) == HostExec(s, "gitlab.com/");
  }

  /** An input with two slashes and no "github.com/" matches none of the GitHub patterns. */
  lemma NoGitHub(s: string, i1: nat, i2: nat)
    requires i1 < i2 < |s| && s[i1] == '/' && s[i2] == '/'
    requires Absent(s, "github.com/")
    ensures TryGitHub(s, 0).None?
  {
    NoHostMatch(s, "github.com/");
    NotBare(s, i1, i2);
    GitHubPatternsFail(s);
  }

  /** The GitHub patterns fail together when each of them fails. */
  lemma GitHubPatternsFail(s: string)
    requires HostExec(s, "github.com/").None? && BareExec(s).None? && FullUrlExec(s, "github.com/").None?
    ensures TryGitHub(s, 0).None?
  {
    assert Exec(GitHubPatterns[0], s).None?;
    assert Exec(GitHubPatterns[1], s).None?;
    assert Exec(GitHubPatterns[2], s).None?;
  }

  /** The GitHub host pattern matching at `j`, the leftmost "github.com/", with
      segments `o` and `r`. */
  lemma ParseGitHubHostAt(s: string, j: nat, o: string, r: string)
    requires HasPrefixAt(s, j, "github.com/") && PairShape(s, j + 11, o, r)
    requires NoOccurrenceBefore(s, "github.com/", j)
    ensures Parse(s) == Some(ParsedUrl(o, StripGit(r), true, None))
  {
    HostPairFound(s, "github.com/", j, o, r);
    var e := j + 11 + |o| + 1 + |r|;
    HostExecAt(s, "github.com/", j, Pair(o, r, e));
    ParseByGitHubHost(s, s[j..e], o, r);
  }

  /** `github.com/o/r` anywhere in the input, with any prefix and any trailing path,
      gives the GitHub repository `o/r` minus one trailing ".git"; the leftmost
      occurrence of "github.com/" decides. */
  lemma ParseGitHubHost(s: string, p: string, o: string, r: string, t: string)
    requires s == p + "github.com/" + o + "/" + r + t
    requires |o| > 0 && |r| > 0 && '/' !in o && '/' !in r
    requires t == [] || t[0] == '/'
    requires NoOccurrenceBefore(s, "github.com/", |p|)
    ensures Parse(s) == Some(ParsedUrl(o, StripGit(r), true, None))
  {
    HostPieces(s, p, "github.com/", o, r, t);
    ParseGitHubHostAt(s, |p|, o, r);
  }

  /** A host pattern match holds two slashes: after the host and between the segments. */
  lemma HostMatchTwoSlashes(s: string, lit: string)
    requires |lit| == 11 && lit[10] == '/' && HostExec(s, lit).Some?
    ensures exists i1, i2 :: 0 <= i1 < i2 < |s| && s[i1] == '/' && s[i2] == '/'
  {
    var (j, pr) := FirstHostMatch(s, lit).value;
    assert HasPrefixAt(s, j, lit);
    assert s[j + 10] == s[j..j + 11][10];
    assert s[j + 11 + |pr.first|] == '/';
  }

  /** A bare `a/b` with exactly one slash and non-empty sides is a GitHub reference,
      whatever the sides look like (even a GitLab host name as `a`). */
  lemma ParseBare(s: string, a: string, b: string)
    requires s == a + "/" + b
    requires |a| > 0 && |b| > 0 && '/' !in a && '/' !in b
    ensures Parse(s) == Some(ParsedUrl(a, StripGit(b), true, None))
  {
    OneSlash(s, a, b);
    if HostExec(s, "github.com/").Some? {
      HostMatchTwoSlashes(s, "github.com/");
      assert false;
    }
    assert Exec(GitHubPatterns[0], s).None?;
    assert s[0..|a| + 1 + |b|] == a + "/" + b;
    SegmentPairAtComplete(s, 0, a, b);
    assert Exec(GitHubPatterns[1], s) == Some([Some(s), Some(a), Some(b)]);
  }

  /** A host literal ending in a slash, followed by two segments, puts two slashes in `s`. */
  lemma HostShapeSlashes(s: string, j: nat, lit: string, a: string, b: string)
    requires |lit| == 11 && lit[10] == '/'
    requires HasPrefixAt(s, j, lit) && PairShape(s, j + 11, a, b)
    ensures j + 10 < j + 11 + |a| < |s| && s[j + 10] == '/' && s[j + 11 + |a|] == '/'
    ensures |b| > 0
  {
    PrefixChar(s, j, lit, 10);
    SliceAroundSlash(s, j + 11, a, b);
  }

  /** Another host literal followed by two segments puts two slashes in the input, so
      without "github.com/" no GitHub pattern matches. */
  lemma NoGitHubBesideHost(s: string, j: nat, lit: string, a: string, b: string)
    requires |lit| == 11 && lit[10] == '/'
    requires HasPrefixAt(s, j, lit) && PairShape(s, j + 11, a, b)
    requires Absent(s, "github.com/")
    ensures TryGitHub(s, 0).None?
  {
    HostShapeSlashes(s, j, lit, a, b);
    NoGitHub(s, j + 10, j + 11 + |a|);
  }

  /** The leftmost occurrence of the host literal, followed by two segments, is what
      the unanchored host pattern captures. */
  lemma HostShapeExec(s: string, lit: string, j: nat, a: string, b: string, e: nat)
    requires HasPrefixAt(s, j, lit) && PairShape(s, j + |lit|, a, b)
    requires NoOccurrenceBefore(s, lit, j)
    requires e == j + |lit| + |a| + 1 + |b|
    ensures HostExec(s, lit) == Some([Some(s[j..e]), Some(a), Some(b)])
  {
    HostPairFound(s, lit, j, a, b);
    HostExecAt(s, lit, j, Pair(a, b, e));
  }

  /** `gitlab.com/a/b` at the leftmost "gitlab.com/", in an input that no GitHub pattern
      matches, gives the gitlab.com repository whose repo is `b` minus one ".git" and whose
      owner is `b` as well: the owner is read from the second segment, and `a` is lost. */
  lemma ParseGitLabCom(s: string, p: string, a: string, b: string, t: string)
    requires s == p + "gitlab.com/" + a + "/" + b + t
    requires |a| > 0 && |b| > 0 && '/' !in a && '/' !in b
    requires t == [] || t[0] == '/'
    requires TryGitHub(s, 0).None?
    requires NoOccurrenceBefore(s, "gitlab.com/", |p|)
    ensures Parse(s) == Some(ParsedUrl(b, StripGit(b), false, Some("gitlab.com")))
  {
    HostPieces(s, p, "gitlab.com/", a, b, t);
    var e := |p| + 11 + |a| + 1 + |b|;
    HostShapeExec(s, "gitlab.com/", |p|, a, b, e);
    ParseByGitLabHost(s, s[|p|..e], a, b);
  }

  /** The common case of the above: an input without "github.com/" matches no GitHub
      pattern, because `gitlab.com/a/b` already holds two slashes. */
  lemma ParseGitLabComWithoutGitHub(s: string, p: string, a: string, b: string, t: string)
    requires s == p + "gitlab.com/" + a + "/" + b + t
    requires |a| > 0 && |b| > 0 && '/' !in a && '/' !in b
    requires t == [] || t[0] == '/'
    requires Absent(s, "github.com/")
    requires NoOccurrenceBefore(s, "gitlab.com/", |p|)
    ensures Parse(s) == Some(ParsedUrl(b, StripGit(b), false, Some("gitlab.com")))
  {
    HostPieces(s, p, "gitlab.com/", a, b, t);
    NoGitHubBesideHost(s, |p|, "gitlab.com/", a, b);
    ParseGitLabCom(s, p, a, b, t);
  }

  /** With no GitHub or gitlab.com reference and two slashes, only the self-hosted
      pattern is left to try. */
  lemma OnlyInstanceLeft(s: string, i1: nat, i2: nat)
    requires i1 < i2 < |s| && s[i1] == '/' && s[i2] == '/'
    requires Absent(s, "github.com/") && Absent(s, "gitlab.com/")
    ensures Parse(s) == TryGitLab(s, 2)
  {
    NoGitHub(s, i1, i2);
    NoHostMatch(s, "gitlab.com/");
    GitLabComPatternsFail(s);
  }

  /** When both gitlab.com patterns fail, the self-hosted pattern decides. */
  lemma GitLabComPatternsFail(s: string)
    requires HostExec(s, "gitlab.com/").None? && FullUrlExec(s, "gitlab.com/").None?
    ensures TryGitLab(s, 0) == TryGitLab(s, 2)
  {
    assert Exec(GitLabPatterns[0], s).None?;
    assert Exec(GitLabPatterns[1], s).None?;
  }

  /** The optional scheme group captures exactly the scheme written before a `g`. */
  lemma SchemeBeforeGitLab(s: string, scheme: string)
    requires scheme == "" || scheme == "http://" || scheme == "https://"
    requires |scheme| < |s| && s[|scheme|] == 'g' && s[..|scheme|] == scheme
    ensures SchemeLength(s) == |scheme|
  {
    if scheme == "http://" {
      assert s[7] != "https://"[7];
    } else if scheme == "" {
      assert s[0] != 'h';
    }
  }

  /** The host run after "gitlab." is `h`, and a slash follows it. */
  lemma HostRun(s: string, n: nat, h: string)
    requires n + 7 + |h| < |s| && s[n + 7 + |h|] == '/' && '/' !in h
    requires s[n + 7..n + 7 + |h|] == h
    ensures FirstIn(s, Slash, n + 7) == n + 7 + |h|
  {
    var k := n + 7 + |h|;
    forall j | n + 7 <= j < k ensures s[j] !in Slash {
      assert s[j] == s[n + 7..k][j - n - 7];
    }
    FirstInAt(s, Slash, n + 7, k);
  }

  /** A host with an interior dot is always split. */
  lemma HostSplitFound(h: string)
    requires HasInteriorDot(h)
    ensures HostSplit(h).Some?
  {
    var d :| 1 <= d && d + 1 < |h| && h[d] == '.';
  }

  /** Cutting out a dot and putting it back gives the same text. */
  lemma Rejoin(h: string, d: nat)
    requires d < |h| && h[d] == '.'
    ensures h[..d] + "." + h[d + 1..] == h
  {
    assert h == h[..d] + [h[d]] + h[d + 1..];
  }

  /** Once "gitlab." is found after the scheme, the pattern goes on at the first slash
      after it. */
  lemma InstanceExecAt(s: string, n: nat, k: nat)
    requires SchemeLength(s) == n && HasPrefixAt(s, n, "gitlab.")
    requires FirstIn(s, Slash, n + 7) == k
    ensures InstanceExec(s) == InstanceAfterHost(s, n, k)
  {
  }

  /** The groups once the host run `h` splits at `d` and two segments follow its slash. */
  lemma InstanceAfterHostAt(s: string, n: nat, k: nat, h: string, d: nat, pr: Pair)
    requires n + 7 <= k < |s| && s[n + 7..k] == h
    requires HostSplit(h) == Some(d)
    requires SegmentPairAt(s, k + 1) == Some(pr)
    ensures InstanceAfterHost(s, n, k) ==
      Some([Some(s[..pr.end]), SchemeGroup(s), Some(h[..d]), Some(h[d + 1..]), Some(pr.first), Some(pr.second)])
  {
  }

  /** Putting "gitlab.", the two sides of the split and the dot back together gives
      "gitlab." followed by the whole host run. */
  lemma InstanceRejoin(h: string, d: nat)
    requires d < |h| && h[d] == '.'
    ensures "gitlab." + h[..d] + "." + h[d + 1..] == "gitlab." + h
  {
    Rejoin(h, d);
    assert "gitlab." + h[..d] + "." + h[d + 1..] == "gitlab." + (h[..d] + "." + h[d + 1..]);
  }

  /** The self-hosted pattern's groups, given where each of its greedy pieces stops. */
  lemma InstanceExecFrom(s: string, n: nat, k: nat, h: string, pr: Pair)
    requires SchemeLength(s) == n && HasPrefixAt(s, n, "gitlab.")
    requires FirstIn(s, Slash, n + 7) == k && k < |s|
    requires s[n + 7..k] == h && HasInteriorDot(h)
    requires SegmentPairAt(s, k + 1) == Some(pr)
    ensures InstanceExec(s).Some?
    ensures "gitlab." + Captured(InstanceExec(s).value[2]) + "." + Captured(InstanceExec(s).value[3]) == "gitlab." + h
    ensures InstanceExec(s).value[4] == Some(pr.first) && InstanceExec(s).value[5] == Some(pr.second)
  {
    HostSplitFound(h);
    var d := HostSplit(h).value;
    InstanceExecAt(s, n, k);
    InstanceAfterHostAt(s, n, k, h, d, pr);
    InstanceRejoin(h, d);
  }

  /** Where the pieces of `scheme + "gitlab." + h + "/" + o + "/" + r + t` sit:
      the host starts at `n + 7`, the slash after it is at `k`, the segments start at
      `k + 1` and end at `e`. */
  lemma InstanceLayout(s: string, scheme: string, h: string, o: string, r: string, t: string,
                       n: nat, k: nat, e: nat)
    requires s == scheme + "gitlab." + h + "/" + o + "/" + r + t
    requires n == |scheme| && k == n + 7 + |h| && e == k + 1 + |o| + 1 + |r|
    ensures |s| == e + |t|
    ensures s[..n] == scheme
    ensures s[n..n + 7] == "gitlab."
    ensures s[n + 7..k] == h
    ensures s[k] == '/'
    ensures s[k + 1..e] == o + "/" + r
    ensures |t| > 0 ==> s[e] == t[0]
  {
    var p6 := scheme + "gitlab.";
    var p5 := p6 + h;
    var p4 := p5 + "/";
    var p1 := p4 + o + "/" + r;
    assert s == p1 + t;
    assert s[..|p1|] == p1;
    assert p1[..|p4|] == p4;
    assert p1[|p4|..] == o + "/" + r;
    assert s[..|p5|] == p5;
    assert p5[..|p6|] == p6;
    assert s[..n] == p6[..n] == scheme;
    assert s[n..|p6|] == p6[n..] == "gitlab.";
    assert s[|p6|..|p5|] == p5[|p6|..] == h;
    assert s[|p4|..|p1|] == p1[|p4|..];
  }

  /** Where each greedy piece of the self-hosted pattern stops on
      `[http[s]://]gitlab.<h>/<o>/<r>...`, laid out as `InstanceLayout` states. */
  lemma InstancePieces(s: string, scheme: string, h: string, o: string, r: string, t: string,
                       n: nat, k: nat, e: nat)
    requires scheme == "" || scheme == "http://" || scheme == "https://"
    requires '/' !in h
    requires |o| > 0 && |r| > 0 && '/' !in o && '/' !in r
    requires t == [] || t[0] == '/'
    requires n == |scheme| && k == n + 7 + |h| && e == k + 1 + |o| + 1 + |r|
    requires |s| == e + |t|
    requires s[..n] == scheme
    requires s[n..n + 7] == "gitlab."
    requires s[n + 7..k] == h
    requires s[k] == '/'
    requires s[k + 1..e] == o + "/" + r
    requires |t| > 0 ==> s[e] == t[0]
    ensures SchemeLength(s) == n && HasPrefixAt(s, n, "gitlab.")
    ensures FirstIn(s, Slash, n + 7) == k < |s|
    ensures SegmentPairAt(s, k + 1) == Some(Pair(o, r, e))
  {
    InstanceScheme(s, scheme, n);
    HostRun(s, n, h);
    InstanceSegments(s, o, r, t, k, e);
  }

  /** "gitlab." right after the scheme is where the pattern looks for it. */
  lemma InstanceScheme(s: string, scheme: string, n: nat)
    requires scheme == "" || scheme == "http://" || scheme == "https://"
    requires n == |scheme| && n + 7 <= |s|
    requires s[..n] == scheme && s[n..n + 7] == "gitlab."
    ensures SchemeLength(s) == n && HasPrefixAt(s, n, "gitlab.")
  {
    assert s[n] == s[n..n + 7][0] == 'g';
    SchemeBeforeGitLab(s, scheme);
  }

  /** Two segments after the host's slash are captured as they are written. */
  lemma InstanceSegments(s: string, o: string, r: string, t: string, k: nat, e: nat)
    requires |o| > 0 && |r| > 0 && '/' !in o && '/' !in r
    requires t == [] || t[0] == '/'
    requires e == k + 1 + |o| + 1 + |r| && |s| == e + |t|
    requires s[k + 1..e] == o + "/" + r
    requires |t| > 0 ==> s[e] == t[0]
    ensures SegmentPairAt(s, k + 1) == Some(Pair(o, r, e))
  {
    assert PairShape(s, k + 1, o, r);
    SegmentPairAtComplete(s, k + 1, o, r);
  }

  /** A self-hosted reference `[http[s]://]gitlab.<h>/<o>/<r>`, with `h` slash-free and
      holding an interior dot, that no earlier pattern matches, gives instance
      "gitlab." + h whichever dot the greedy split chose, owner `o` and repo `r` minus
      one ".git". */
  lemma ParseGitLabInstance(s: string, scheme: string, h: string, o: string, r: string, t: string)
    requires scheme == "" || scheme == "http://" || scheme == "https://"
    requires s == scheme + "gitlab." + h + "/" + o + "/" + r + t
    requires '/' !in h && HasInteriorDot(h)
    requires |o| > 0 && |r| > 0 && '/' !in o && '/' !in r
    requires t == [] || t[0] == '/'
    requires TryGitHub(s, 0).None? && HostExec(s, "gitlab.com/").None?
    ensures Parse(s) == Some(ParsedUrl(o, StripGit(r), false, Some("gitlab." + h)))
  {
    var n := |scheme|;
    var k := n + 7 + |h|;
    var e := k + 1 + |o| + 1 + |r|;
    InstanceLayout(s, scheme, h, o, r, t, n, k, e);
    InstancePieces(s, scheme, h, o, r, t, n, k, e);
    InstanceExecFrom(s, n, k, h, Pair(o, r, e));
    FullUrlPatternsNeverFire(s, "gitlab.com/");
    GitLabComPatternsFail(s);
    var m := InstanceExec(s).value;
    ParseByInstance(s, m);
  }

  /** The common case of the above: without "github.com/" and "gitlab.com/" no earlier
      pattern matches, since the reference holds two slashes. */
  lemma ParseGitLabInstanceWithoutHosts(s: string, scheme: string, h: string, o: string, r: string, t: string)
    requires scheme == "" || scheme == "http://" || scheme == "https://"
    requires s == scheme + "gitlab." + h + "/" + o + "/" + r + t
    requires '/' !in h && HasInteriorDot(h)
    requires |o| > 0 && |r| > 0 && '/' !in o && '/' !in r
    requires t == [] || t[0] == '/'
    requires Absent(s, "github.com/") && Absent(s, "gitlab.com/")
    ensures Parse(s) == Some(ParsedUrl(o, StripGit(r), false, Some("gitlab." + h)))
  {
    var n := |scheme|;
    var k := n + 7 + |h|;
    var e := k + 1 + |o| + 1 + |r|;
    InstanceLayout(s, scheme, h, o, r, t, n, k, e);
    NoGitHub(s, k, k + 1 + |o|);
    NoHostMatch(s, "gitlab.com/");
    ParseGitLabInstance(s, scheme, h, o, r, t);
  }

  /** What the parser returns once the self-hosted pattern is the one that matched. */
  lemma ParseByInstance(s: string, m: Groups)
    requires InstanceExec(s) == Some(m)
    ensures TryGitLab(s, 2) == Some(ParsedUrl(Captured(m[4]), StripGit(Captured(m[5])), false,
      Some("gitlab." + Captured(m[2]) + "." + Captured(m[3]))))
  {
    assert Exec(GitLabPatterns[2], s) == Some(m);
  }
}

/** The parser on concrete references. Each example takes the reference as a parameter
    pinned to its text by a `requires`, rather than writing the text into the `ensures`:
    a literal argument lets the solver unfold the whole parser on it, which costs far
    more than the proof through the general lemmas. */
module RepoUrlExamples {
  import opened Optional
  import opened Text
  import opened RepoUrl
  import opened RepoUrlProps

  /** The instance name of the self-hosted example, as the parser assembles it. Stated on
      its own: proved inside the example, the equality of the joined text drags the whole
      parser into the solver's search. */
  lemma ExampleDomain()
    ensures "gitlab." + "tails.net" == "gitlab.tails.net"
  {
  }

  /** Neither public host occurs in the self-hosted example: it has no 'h' and no 'c'. */
  lemma ExampleHostsAbsent(s: string)
    requires s == "gitlab." + "tails.net" + "/" + "team" + "/" + "proj"
    ensures Absent(s, "github.com/") && Absent(s, "gitlab.com/")
  {
    AbsentByChar(s, "github.com/", 3);
    AbsentByChar(s, "gitlab.com/", 7);
  }

  /** A self-hosted instance is recognised with its full host name. */
  lemma SelfHostedExample(s: string)
    requires s == "gitlab." + "tails.net" + "/" + "team" + "/" + "proj"
    ensures Parse(s) == Some(ParsedUrl("team", "proj", false, Some("gitlab.tails.net")))
  {
    assert Parse(s) == Some(ParsedUrl("team", StripGit("proj"), false, Some("gitlab." + "tails.net"))) by {
      assert s == "" + "gitlab." + "tails.net" + "/" + "team" + "/" + "proj" + "";
      assert HasInteriorDot("tails.net") by {
        assert "tails.net"[5] == '.';
      }
      ExampleHostsAbsent(s);
      ParseGitLabInstanceWithoutHosts(s, "", "tails.net", "team", "proj", "");
    }
    ExampleDomain();
    assert StripGit("proj") == "proj";
  }

  /** A GitHub URL with a ".git" suffix and a trailing path. */
  lemma GitHubUrlExample(s: string)
    requires s == "https://" + "github.com/" + "bar" + "/" + "Foo.git" + "/tree/main"
    ensures Parse(s) == Some(ParsedUrl("bar", "Foo", true, None))
  {
    assert Parse(s) == Some(ParsedUrl("bar", StripGit("Foo.git"), true, None)) by {
      var rest := "github.com/" + "bar" + "/" + "Foo.git" + "/tree/main";
      assert s == "https://" + rest;
      AbsentFromPrefix(s, "github.com/", "https://", rest);
      ParseGitHubHost(s, "https://", "bar", "Foo.git", "/tree/main");
    }
    assert StripGit("Foo.git") == "Foo" by {
      StripGitRemovesSuffix("Foo");
      assert "Foo" + ".git" == "Foo.git";
    }
  }

  /** A bare "owner/repo" is taken as GitHub. */
  lemma BareExample(s: string)
    requires s == "bar" + "/" + "Foo"
    ensures Parse(s) == Some(ParsedUrl("bar", "Foo", true, None))
  {
    ParseBare(s, "bar", "Foo");
    assert StripGit("Foo") == "Foo";
  }

  /** On gitlab.com the owner reported is the repository segment. */
  lemma GitLabComExample(s: string)
    requires s == "https://" + "gitlab.com/" + "gitlab-org" + "/" + "gitlab"
    ensures Parse(s) == Some(ParsedUrl("gitlab", "gitlab", false, Some("gitlab.com")))
  {
    assert Parse(s) == Some(ParsedUrl("gitlab", StripGit("gitlab"), false, Some("gitlab.com"))) by {
      var rest := "gitlab.com/" + "gitlab-org" + "/" + "gitlab";
      assert s == "https://" + rest;
      assert s == "https://" + "gitlab.com/" + "gitlab-org" + "/" + "gitlab" + "";
      AbsentByChar(s, "github.com/", 4);
      AbsentFromPrefix(s, "gitlab.com/", "https://", rest);
      ParseGitLabComWithoutGitHub(s, "https://", "gitlab-org", "gitlab", "");
    }
    assert StripGit("gitlab") == "gitlab";
  }

  /** A "github.com/" at the very end, with no segments after it, matches no GitHub
      pattern, so the gitlab.com reference before it decides. */
  lemma TrailingGitHubExample(s: string)
    requires s == "gitlab.com/" + "a" + "/" + "b" + "/github.com/"
    ensures Parse(s) == Some(ParsedUrl("b", "b", false, Some("gitlab.com")))
  {
    assert s == "" + "gitlab.com/" + "a" + "/" + "b" + "/github.com/";
    HostOnlyAtEnd(s, "github.com/", 3);
    NotBare(s, 10, 12);
    GitHubPatternsFail(s);
    ParseGitLabCom(s, "", "a", "b", "/github.com/");
  }

  /** A repository segment that is only ".git" leaves an empty repository name. */
  lemma EmptyRepoExample(s: string)
    requires s == "o" + "/" + ".git"
    ensures Parse(s) == Some(ParsedUrl("o", "", true, None))
  {
    ParseBare(s, "o", ".git");
    StripGitRemovesSuffix("");
  }

  /** Text without a slash is rejected. */
  lemma NoSlashExample(s: string)
    requires s == "not a repository"
    ensures Parse(s).None?
  {
    ParseNeedsSlash(s);
  }
}

=== FILE: text.dfy ===
/** Character-level scanning shared by the parser, the version comparator and the
    citation formatter: literal prefixes, separator runs, split/join and decimal numerals. */
module Text {

  /** `lit` occurs in `s` starting at index `i`. */
  predicate HasPrefixAt(s: string, i: nat, lit: string) {
    i + |lit| <= |s| && s[i..i + |lit|] == lit
  }

  /** No occurrence of `lit` in `s` starts before index `n`. */
  predicate NoOccurrenceBefore(s: string, lit: string, n: nat) {
    forall j: nat :: j < n ==> !HasPrefixAt(s, j, lit)
  }

  /** `lit` does not occur in `s` at all. */
  predicate Absent(s: string, lit: string) {
    NoOccurrenceBefore(s, lit, |s| + 1)
  }

  /** The middle piece of a text written as three pieces. */
  lemma Middle(s: string, a: string, b: string, c: string)
    requires s == a + b + c
    ensures s[|a|..|a| + |b|] == b
  {
    assert forall k :: 0 <= k < |b| ==> s[|a| + k] == b[k];
  }

  /** A slice cut at `k` is its two sides around the character at `k`. */
  lemma SliceAt(s: string, i: nat, k: nat, e: nat)
    requires i <= k < e <= |s|
    ensures s[i..e] == s[i..k] + [s[k]] + s[k + 1..e]
  {
  }

  /** A character of an occurrence of `lit` is the character of `lit` it matches. */
  lemma PrefixChar(s: string, j: nat, lit: string, q: nat)
    requires HasPrefixAt(s, j, lit) && q < |lit|
    ensures s[j + q] == lit[q]
  {
    assert s[j + q] == s[j..j + |lit|][q];
  }

  /** A slice that reads `o`, a slash and `r` splits into those three pieces. */
  lemma SliceAroundSlash(s: string, i: nat, o: string, r: string)
    requires i + |o| + 1 + |r| <= |s| && s[i..i + |o| + 1 + |r|] == o + "/" + r
    ensures s[i..i + |o|] == o && s[i + |o|] == '/' && s[i + |o| + 1..i + |o| + 1 + |r|] == r
  {
    var w := s[i..i + |o| + 1 + |r|];
    assert s[i..i + |o|] == w[..|o|];
    assert s[i + |o|] == w[|o|];
    assert s[i + |o| + 1..i + |o| + 1 + |r|] == w[|o| + 1..];
  }

  /** A literal holding a character that `s` lacks does not occur in `s`. */
  lemma AbsentByChar(s: string, lit: string, q: nat)
    requires q < |lit| && lit[q] !in s
    ensures Absent(s, lit)
  {
    forall j: nat | j < |s| + 1
      ensures !HasPrefixAt(s, j, lit)
    {
      if j + |lit| <= |s| {
        assert s[j..j + |lit|][q] == s[j + q];
      }
    }
  }

  /** A literal whose first character is missing from the prefix `p` of `s` has no
      occurrence starting inside `p`. */
  lemma AbsentFromPrefix(s: string, lit: string, p: string, rest: string)
    requires s == p + rest && |lit| > 0 && lit[0] !in p
    ensures NoOccurrenceBefore(s, lit, |p|)
  {
    forall j: nat | j < |p|
      ensures !HasPrefixAt(s, j, lit)
    {
      assert s[j] == p[j];
    }
  }

  /** No character of `s` belongs to `seps`. */
  predicate Free(s: string, seps: set<char>) {
    forall i :: 0 <= i < |s| ==> s[i] !in seps
  }

  /** The first index at or after `i` that holds a separator, or `|s|` if there is none:
      the end of the maximal separator-free run starting at `i` (what a greedy
      negated character class such as `[^/]+` reaches). */
  function FirstIn(s: string, seps: set<char>, i: nat): (k: nat)
    requires i <= |s|
    ensures i <= k <= |s|
    ensures k == |s| || s[k] in seps
    ensures forall j :: i <= j < k ==> s[j] !in seps
    decreases |s| - i
  {
    if i == |s| || s[i] in seps then i else FirstIn(s, seps, i + 1)
  }

  /** `FirstIn` is determined by where the run actually stops. */
  lemma {:induction false} FirstInAt(s: string, seps: set<char>, i: nat, k: nat)
    requires i <= k <= |s|
    requires forall j :: i <= j < k ==> s[j] !in seps
    requires k == |s| || s[k] in seps
    ensures FirstIn(s, seps, i) == k
    decreases k - i
  {
    if i < k {
      FirstInAt(s, seps, i + 1, k);
    }
  }

  /** JavaScript `split` on a character class: `n` separators give `n + 1` parts,
      empty parts included (so the empty string gives one empty part). */
  function SplitAt(s: string, seps: set<char>): (parts: seq<string>)
    ensures |parts| >= 1
    ensures forall k :: 0 <= k < |parts| ==> Free(parts[k], seps)
    decreases |s|
  {
    var k := FirstIn(s, seps, 0);
    if k == |s| then [s] else [s[..k]] + SplitAt(s[k + 1..], seps)
  }

  /** The parts joined with one separator character between neighbours. */
  function Join(parts: seq<string>, sep: char): string
    requires |parts| >= 1
  {
    if |parts| == 1 then parts[0] else parts[0] + [sep] + Join(parts[1..], sep)
  }

  lemma SplitFree(s: string, seps: set<char>)
    requires Free(s, seps)
    ensures SplitAt(s, seps) == [s]
  {
    FirstInAt(s, seps, 0, |s|);
  }

  lemma SplitCons(a: string, c: char, b: string, seps: set<char>)
    requires Free(a, seps) && c in seps
    ensures SplitAt(a + [c] + b, seps) == [a] + SplitAt(b, seps)
  {
    var s := a + [c] + b;
    FirstInAt(s, seps, 0, |a|);
    assert s[..|a|] == a;
    assert s[|a| + 1..] == b;
  }

  /** Splitting undoes joining whenever the parts hold no separator. */
  lemma {:induction false} SplitJoin(parts: seq<string>, sep: char, seps: set<char>)
    requires |parts| >= 1 && sep in seps
    requires forall k :: 0 <= k < |parts| ==> Free(parts[k], seps)
    ensures SplitAt(Join(parts, sep), seps) == parts
    decreases |parts|
  {
    if |parts| == 1 {
      SplitFree(parts[0], seps);
    } else {
      SplitJoin(parts[1..], sep, seps);
      SplitCons(parts[0], sep, Join(parts[1..], sep), seps);
      assert [parts[0]] + parts[1..] == parts;
    }
  }

  /** Removes one trailing `.git`, as the replacement of a `\.git$` match does. */
  function StripGit(r: string): (t: string)
    ensures |t| == |r| || |t| + 4 == |r|
  {
    if |r| >= 4 && r[|r| - 4..] == ".git" then r[..|r| - 4] else r
  }

  lemma StripGitRemovesSuffix(x: string)
    ensures StripGit(x + ".git") == x
  {
    assert (x + ".git")[|x|..] == ".git";
    assert (x + ".git")[..|x|] == x;
  }

  lemma StripGitKeepsOthers(x: string)
    requires !(|x| >= 4 && x[|x| - 4..] == ".git")
    ensures StripGit(x) == x
  {
  }

  predicate IsDigit(c: char) {
    '0' <= c <= '9'
  }

  /** A non-empty run of ASCII decimal digits (the text `^\d+$` accepts). */
  predicate AllDigits(s: string) {
    |s| > 0 && forall i :: 0 <= i < |s| ==> IsDigit(s[i])
  }

  /** The shortest decimal numeral: digits only, and no leading zero unless the numeral
      is "0" itself. */
  predicate Numeral(s: string) {
    AllDigits(s) && (|s| == 1 || s[0] != '0')
  }

  /** The value of a decimal numeral; leading zeros are allowed. */
  function DigitsValue(s: string): nat
    requires forall i :: 0 <= i < |s| ==> IsDigit(s[i])
  {
    if |s| == 0 then 0
    else
      assert IsDigit(s[|s| - 1]);
      DigitsValue(s[..|s| - 1]) * 10 + (s[|s| - 1] as int - '0' as int)
  }

  function DigitChar(d: nat): (c: char)
    requires d < 10
    ensures IsDigit(c) && c as int - '0' as int == d
  {
    ('0' as int + d) as char
  }

  /** Shortest decimal numeral of `n`: JavaScript's `toString` of a non-negative integer
      below 10^21, which covers every year a `Date` holds (from 10^21 on JavaScript
      switches to exponent notation). */
  function NatToString(n: nat): (s: string)
    ensures |s| >= 1
    decreases n
  {
    if n < 10 then [DigitChar(n)] else NatToString(n / 10) + [DigitChar(n % 10)]
  }

  /** Decimal numeral of `n`, with a leading `-` when negative. */
  function IntToString(n: int): string {
    if n < 0 then "-" + NatToString(-n) else NatToString(n)
  }

  /** The text JavaScript prints for an integer `n` below 10^21 in magnitude: its
      shortest numeral, after a `-` when `n` is negative. */
  predicate PrintsAs(s: string, n: int) {
    if n < 0 then |s| > 1 && s[0] == '-' && Numeral(s[1..]) && DigitsValue(s[1..]) == -n
    else Numeral(s) && DigitsValue(s) == n
  }

  /** A rendered number is the shortest numeral, and reading it back gives the number it
      was rendered from. */
  lemma {:induction false} NatToStringRoundTrip(n: nat)
    ensures Numeral(NatToString(n))
    ensures DigitsValue(NatToString(n)) == n
    decreases n
  {
    if n >= 10 {
      NatToStringRoundTrip(n / 10);
      var x := NatToString(n / 10);
      var s := x + [DigitChar(n % 10)];
      assert s[..|s| - 1] == x;
      assert s[0] == x[0];
    }
  }

  /** An integer, negative ones included, is rendered as its shortest numeral, which is
      what JavaScript prints for every integer below 10^21 in magnitude. */
  lemma IntToStringRoundTrip(n: int)
    ensures PrintsAs(IntToString(n), n)
  {
    if n < 0 {
      NatToStringRoundTrip(-n);
      assert IntToString(n)[1..] == NatToString(-n);
    } else {
      NatToStringRoundTrip(n);
    }
  }

  /** Every shortest numeral is what its own value renders as. */
  lemma {:induction false} NumeralPrintsItself(s: string)
    requires Numeral(s)
    ensures NatToString(DigitsValue(s)) == s
    ensures s[0] != '0' ==> DigitsValue(s) >= 1
    decreases |s|
  {
    var x := s[|s| - 1];
    var d := x as int - '0' as int;
    if |s| == 1 {
      assert DigitsValue(s) == DigitsValue(s[..0]) * 10 + d;
      assert DigitChar(d) == x;
    } else {
      var p := s[..|s| - 1];
      assert p[0] == s[0];
      NumeralPrintsItself(p);
      var v := DigitsValue(s);
      assert v == DigitsValue(p) * 10 + d;
      assert v / 10 == DigitsValue(p) && v % 10 == d;
      assert DigitChar(d) == x;
      assert s == p + [x];
    }
  }

  /** The printed form of an integer is unique: a text prints `n` exactly when it is
      the rendering of `n`. */
  lemma PrintsAsExactly(s: string, n: int)
    ensures PrintsAs(s, n) <==> s == IntToString(n)
  {
    IntToStringRoundTrip(n);
    if PrintsAs(s, n) {
      if n < 0 {
        NumeralPrintsItself(s[1..]);
        assert s == "-" + s[1..];
      } else {
        NumeralPrintsItself(s);
      }
    }
  }
}

=== FILE: types.dfy ===
/** The records handed between the stages: repository facts and the finished citation. */
module Types {
  import opened Optional

  /** The latest tag of a repository: its name and the raw date text of its commit. */
  datatype TagInfo = TagInfo(name: string, date: string)

  /** Repository facts gathered from the host's API. */
  datatype RepositoryData = RepositoryData(
    name: string,
    description: string,
    url: string,
    isGitHub: bool,
    latestTag: Option<TagInfo>,
    owner: string)

  /** The date parser: the calendar year of a date text (`new Date(t).getFullYear()`),
      or `None` for a text that is not a date, where JavaScript's time value is NaN. */
  type YearOf = string -> Option<int>

  /** A BibTeX citation together with the fields it was built from. */
  datatype Citation = Citation(
    bibtexString: string,
    key: string,
    title: string,
    author: string,
    url: string,
    year: string,
    publisher: string,
    version: string)
}

=== FILE: versions.dfy ===
/** The comparator that orders release tags newest first: a leading 'v' is dropped, the
    rest is cut at '.' and '-', and the parts are compared pairwise, numerically when
    both are decimal and as text otherwise. A negative result puts the first tag ahead. */
module Versions {
  import opened Text

  /** The characters a version is cut at. */
  const PartSeparators: set<char> := {'.', '-'}

  /** The version text with one leading 'v' removed. */
  function StripV(s: string): (t: string)
    ensures |s| > 0 && s[0] == 'v' ==> s == "v" + t
    ensures !(|s| > 0 && s[0] == 'v') ==> t == s
  {
    if |s| > 0 && s[0] == 'v' then s[1..] else s
  }

  /** The parts of a tag: its text after `StripV`, cut at every separator. */
  function Parts(s: string): (parts: seq<string>)
    ensures |parts| >= 1
    ensures forall k :: 0 <= k < |parts| ==> Free(parts[k], PartSeparators)
  {
    SplitAt(StripV(s), PartSeparators)
  }

  /** Part `i`, with a missing part read as "0". */
  function PartAt(parts: seq<string>, i: nat): string {
    if i < |parts| then parts[i] else "0"
  }

  function Max(a: nat, b: nat): nat {
    if a < b then b else a
  }

  /** Character-code order on text, answering -1, 0 or 1; it stands in for the
      locale-aware string comparison of the program. */
  function OrdinalCompare(x: string, y: string): (r: int)
    ensures r == -1 || r == 0 || r == 1
    ensures r == 0 <==> x == y
    decreases |x|
  {
    if |x| == 0 && |y| == 0 then 0
    else if |x| == 0 then -1
    else if |y| == 0 then 1
    else if x[0] < y[0] then -1
    else if y[0] < x[0] then 1
    else
      assert x == [x[0]] + x[1..] && y == [y[0]] + y[1..];
      OrdinalCompare(x[1..], y[1..])
  }

  /** Decimal parts are compared by value. Otherwise the text order is reversed, except
      that a "p" part always follows a decimal part whenever the two differ. */
  function ComparePart(pa: string, pb: string): int {
    if AllDigits(pa) && AllDigits(pb) then
      DigitsValue(pb) - DigitsValue(pa)
    else
      var sc := OrdinalCompare(pb, pa);
      if sc == 0 then 0
      else if pa == "p" && AllDigits(pb) then 1
      else if pb == "p" && AllDigits(pa) then -1
      else sc
  }

  /** Compares the parts from index `i` on: the first part pair that differs decides,
      and when none does the version with more parts comes first. */
  function CompareFrom(pa: seq<string>, pb: seq<string>, i: nat): int
    decreases Max(|pa|, |pb|) - i
  {
    if i >= Max(|pa|, |pb|) then |pb| - |pa|
    else
      var c := ComparePart(PartAt(pa, i), PartAt(pb, i));
      if c != 0 then c else CompareFrom(pa, pb, i + 1)
  }

  /** Negative when tag `a` is the newer one and belongs first, positive when `b` is. */
  function CompareVersions(a: string, b: string): int {
    CompareFrom(Parts(a), Parts(b), 0)
  }

  /** `a` sorts strictly ahead of `b`. */
  predicate Newer(a: string, b: string) {
    CompareVersions(a, b) < 0
  }
}

=== FILE: versions_props.dfy ===
/** What the tag comparator guarantees, and what it does not: it is reflexive and
    exactly antisymmetric, ignores one leading 'v', is decided by the first differing
    part, and yet is not transitive once text parts and "p" parts mix. */
module VersionsProps {
  import opened Text
  import opened Versions

  /** Text order is decided at the first position where the two texts differ, or by
      length when one is a prefix of the other. */
  lemma {:induction false} OrdinalCompareAt(x: string, y: string, k: nat)
    requires k <= |x| && k <= |y| && x[..k] == y[..k]
    requires k == |x| || k == |y| || x[k] != y[k]
    ensures OrdinalCompare(x, y) ==
      if k == |x| && k == |y| then 0
      else if k == |x| then -1
      else if k == |y| then 1
      else if x[k] < y[k] then -1
      else 1
    decreases k
  {
    if k > 0 {
      assert x[0] == x[..k][0] && y[0] == y[..k][0];
      assert x[1..][..k - 1] == x[..k][1..] && y[1..][..k - 1] == y[..k][1..];
      OrdinalCompareAt(x[1..], y[1..], k - 1);
    }
  }

  /** Swapping the texts negates the text order. */
  lemma {:induction false} OrdinalAntisymmetric(x: string, y: string)
    ensures OrdinalCompare(y, x) == -OrdinalCompare(x, y)
    decreases |x|
  {
    if |x| > 0 && |y| > 0 && x[0] == y[0] {
      OrdinalAntisymmetric(x[1..], y[1..]);
    }
  }

  /** Swapping two parts negates their comparison; the "p" rule is applied the same
      way from both sides. */
  lemma ComparePartAntisymmetric(pa: string, pb: string)
    ensures ComparePart(pb, pa) == -ComparePart(pa, pb)
  {
    OrdinalAntisymmetric(pa, pb);
  }

  /** Swapping the part lists negates the comparison from any index on. */
  lemma {:induction false} CompareFromAntisymmetric(pa: seq<string>, pb: seq<string>, i: nat)
    ensures CompareFrom(pb, pa, i) == -CompareFrom(pa, pb, i)
    decreases Max(|pa|, |pb|) - i
  {
    if i < Max(|pa|, |pb|) {
      ComparePartAntisymmetric(PartAt(pa, i), PartAt(pb, i));
      CompareFromAntisymmetric(pa, pb, i + 1);
    }
  }

  /** Swapping the tags negates the result exactly, so neither of two tags is ever
      strictly newer than the other in both directions. */
  lemma CompareVersionsAntisymmetric(a: string, b: string)
    ensures CompareVersions(b, a) == -CompareVersions(a, b)
    ensures !(Newer(a, b) && Newer(b, a))
  {
    CompareFromAntisymmetric(Parts(a), Parts(b), 0);
  }

  /** A part list compared with itself ties from any index on. */
  lemma {:induction false} CompareFromReflexive(pa: seq<string>, i: nat)
    ensures CompareFrom(pa, pa, i) == 0
    decreases Max(|pa|, |pa|) - i
  {
    if i < Max(|pa|, |pa|) {
      ComparePartAntisymmetric(PartAt(pa, i), PartAt(pa, i));
      CompareFromReflexive(pa, i + 1);
    }
  }

  /** A tag ties with itself. */
  lemma CompareVersionsReflexive(a: string)
    ensures CompareVersions(a, a) == 0
    ensures !Newer(a, a)
  {
    CompareFromReflexive(Parts(a), 0);
  }

  /** The first differing part pair decides the comparison. */
  lemma {:induction false} FirstDifferenceDecides(pa: seq<string>, pb: seq<string>, i: nat, k: nat)
    requires i <= k < Max(|pa|, |pb|)
    requires forall j :: i <= j < k ==> ComparePart(PartAt(pa, j), PartAt(pb, j)) == 0
    requires ComparePart(PartAt(pa, k), PartAt(pb, k)) != 0
    ensures CompareFrom(pa, pb, i) == ComparePart(PartAt(pa, k), PartAt(pb, k))
    decreases k - i
  {
    if i < k {
      FirstDifferenceDecides(pa, pb, i + 1, k);
    }
  }

  /** When every part pair ties (missing parts read as "0"), the tag with more parts
      is the newer one. */
  lemma {:induction false} TieGoesToMoreParts(pa: seq<string>, pb: seq<string>, i: nat)
    requires forall j :: i <= j < Max(|pa|, |pb|) ==> ComparePart(PartAt(pa, j), PartAt(pb, j)) == 0
    ensures CompareFrom(pa, pb, i) == |pb| - |pa|
    decreases Max(|pa|, |pb|) - i
  {
    if i < Max(|pa|, |pb|) {
      TieGoesToMoreParts(pa, pb, i + 1);
    }
  }

  /** One leading 'v' does not change how a tag compares with any other. */
  lemma LeadingVIgnored(x: string, y: string)
    requires !(|x| > 0 && x[0] == 'v')
    ensures CompareVersions("v" + x, y) == CompareVersions(x, y)
    ensures CompareVersions(y, "v" + x) == CompareVersions(y, x)
  {
    assert ("v" + x)[1..] == x;
  }

  /** Decimal parts compare by value: the larger number is the newer part. */
  lemma NumericPartsByValue(pa: string, pb: string)
    requires AllDigits(pa) && AllDigits(pb)
    ensures ComparePart(pa, pb) < 0 <==> DigitsValue(pa) > DigitsValue(pb)
    ensures ComparePart(pa, pb) == 0 <==> DigitsValue(pa) == DigitsValue(pb)
  {
  }

  /** A "p" part is older than any decimal part. */
  lemma PatchFollowsNumbers(d: string)
    requires AllDigits(d)
    ensures ComparePart("p", d) == 1 && ComparePart(d, "p") == -1
  {
    assert d != "p" by {
      assert !IsDigit('p');
    }
    assert OrdinalCompare(d, "p") != 0;
    OrdinalAntisymmetric(d, "p");
  }

  /** Other parts compare by reversed text order: the text that sorts later is newer. */
  lemma TextPartsReversed(pa: string, pb: string)
    requires !(AllDigits(pa) && AllDigits(pb))
    requires !(pa == "p" && AllDigits(pb)) && !(pb == "p" && AllDigits(pa))
    ensures ComparePart(pa, pb) == -OrdinalCompare(pa, pb)
  {
    OrdinalAntisymmetric(pa, pb);
  }

  /** A tag `u.v` has the two parts `u` and `v`. */
  lemma TwoParts(s: string, u: string, v: string)
    requires s == u + "." + v && |u| > 0 && u[0] != 'v'
    requires Free(u, PartSeparators) && Free(v, PartSeparators)
    ensures Parts(s) == [u, v]
  {
    SplitCons(u, '.', v, PartSeparators);
    SplitFree(v, PartSeparators);
  }

  /** A tag `u.v.w` has the three parts `u`, `v` and `w`. */
  lemma ThreeParts(s: string, u: string, v: string, w: string)
    requires s == u + "." + v + "." + w && |u| > 0 && u[0] != 'v'
    requires Free(u, PartSeparators) && Free(v, PartSeparators) && Free(w, PartSeparators)
    ensures Parts(s) == [u, v, w]
  {
    assert s == u + ['.'] + (v + "." + w);
    SplitCons(u, '.', v + "." + w, PartSeparators);
    TwoPartsSplit(v, w);
  }

  lemma TwoPartsSplit(v: string, w: string)
    requires Free(v, PartSeparators) && Free(w, PartSeparators)
    ensures SplitAt(v + "." + w, PartSeparators) == [v, w]
  {
    SplitCons(v, '.', w, PartSeparators);
    SplitFree(w, PartSeparators);
  }

  /** Two-part tags with the same first part are decided by their second parts. */
  lemma DecidedBySecondPart(a: string, b: string, head: string, u: string, v: string)
    requires Parts(a) == [head, u] && Parts(b) == [head, v]
    requires ComparePart(u, v) != 0
    ensures CompareVersions(a, b) == ComparePart(u, v)
  {
    ComparePartAntisymmetric(head, head);
    FirstDifferenceDecides([head, u], [head, v], 0, 1);
  }

  /** Four separator-free parts with a separator between neighbours split back into
      those four parts. */
  lemma SplitFour(a: string, b: string, c: string, d: string, c1: char, c2: char, c3: char)
    requires c1 in PartSeparators && c2 in PartSeparators && c3 in PartSeparators
    requires Free(a, PartSeparators) && Free(b, PartSeparators) && Free(c, PartSeparators) && Free(d, PartSeparators)
    ensures SplitAt(a + [c1] + (b + [c2] + (c + [c3] + d)), PartSeparators) == [a, b, c, d]
  {
    SplitFree(d, PartSeparators);
    SplitCons(c, c3, d, PartSeparators);
    SplitCons(b, c2, c + [c3] + d, PartSeparators);
    SplitCons(a, c1, b + [c2] + (c + [c3] + d), PartSeparators);
  }

  /** The parts of a tag written as parts joined by '.', without a leading 'v'. */
  lemma PartsOfJoin(s: string, parts: seq<string>)
    requires |parts| >= 1 && s == Join(parts, '.')
    requires forall k :: 0 <= k < |parts| ==> Free(parts[k], PartSeparators)
    requires !(|s| > 0 && s[0] == 'v')
    ensures Parts(s) == parts
  {
    SplitJoin(parts, '.', PartSeparators);
  }
}

/** The comparator on concrete tags. As in the parser examples, the tags are parameters
    pinned to their text by a `requires`, so that the proofs go through the general
    lemmas instead of the solver unfolding the comparator on literals. */
module VersionsExamples {
  import opened Text
  import opened Versions
  import opened VersionsProps

  /** "1.10" is newer than "1.9": parts compare as numbers, not as text. */
  lemma NumbersNotText(a: string, b: string)
    requires a == "1.10" && b == "1.9"
    ensures Newer(a, b)
  {
    TwoParts(a, "1", "10");
    TwoParts(b, "1", "9");
    assert DigitsValue("10") == 10 && DigitsValue("9") == 9;
    DecidedBySecondPart(a, b, "1", "10", "9");
  }

  /** "2.0.1" is newer than "2.0" because the missing third part reads as "0". */
  lemma MissingPartIsZero(a: string, b: string)
    requires a == "2.0.1" && b == "2.0"
    ensures Newer(a, b)
  {
    ThreeParts(a, "2", "0", "1");
    TwoParts(b, "2", "0");
    assert CompareFrom(["2", "0", "1"], ["2", "0"], 0) < 0 by {
      assert ComparePart("2", "2") == 0 && ComparePart("0", "0") == 0;
      assert DigitsValue("1") == 1 && DigitsValue("0") == 0;
      FirstDifferenceDecides(["2", "0", "1"], ["2", "0"], 0, 2);
    }
  }

  /** "2.0.0" is newer than "2.0": every part ties, and more parts win. */
  lemma MorePartsWin(a: string, b: string)
    requires a == "2.0.0" && b == "2.0"
    ensures Newer(a, b)
  {
    ThreeParts(a, "2", "0", "0");
    TwoParts(b, "2", "0");
    assert CompareFrom(["2", "0", "0"], ["2", "0"], 0) < 0 by {
      assert ComparePart("2", "2") == 0 && ComparePart("0", "0") == 0;
      TieGoesToMoreParts(["2", "0", "0"], ["2", "0"], 0);
    }
  }

  /** "1.0.0-" followed by a separator-free part `x` has the four parts 1, 0, 0 and `x`:
      '-' cuts like '.'. */
  lemma HyphenatedParts(x: string)
    requires Free(x, PartSeparators)
    ensures Parts("1.0.0-" + x) == ["1", "0", "0", x]
  {
    var s := "1.0.0-" + x;
    assert s == "1" + ['.'] + ("0" + ['.'] + ("0" + ['-'] + x));
    assert StripV(s) == s by {
      assert s[0] == '1';
    }
    SplitFour("1", "0", "0", x, '.', '.', '-');
  }

  /** The "p" rule: "1.0.0-p" sorts after "1.0.0-3", from either side. */
  lemma PatchRuleExample(a: string, b: string)
    requires a == "1.0.0-p" && b == "1.0.0-3"
    ensures CompareVersions(a, b) == 1 && CompareVersions(b, a) == -1
  {
    assert a == "1.0.0-" + "p" && b == "1.0.0-" + "3";
    HyphenatedParts("p");
    HyphenatedParts("3");
    PatchDecidesFourthPart(["1", "0", "0", "p"], ["1", "0", "0", "3"]);
  }

  /** Part lists that agree on three decimal parts are decided by the "p" rule on the
      fourth. */
  lemma PatchDecidesFourthPart(pa: seq<string>, pb: seq<string>)
    requires pa == ["1", "0", "0", "p"] && pb == ["1", "0", "0", "3"]
    ensures CompareFrom(pa, pb, 0) == 1 && CompareFrom(pb, pa, 0) == -1
  {
    PatchFollowsNumbers("3");
    assert DigitsValue("1") == 1 && DigitsValue("0") == 0;
    FirstDifferenceDecides(pa, pb, 0, 3);
    FirstDifferenceDecides(pb, pa, 0, 3);
  }

  /** "v1.2" and "1.2" tie. */
  lemma LeadingVExample()
    ensures CompareVersions("v1.2", "1.2") == 0
  {
    LeadingVIgnored("1.2", "1.2");
    assert "v" + "1.2" == "v1.2";
    CompareVersionsReflexive("1.2");
  }

  /** The three tags "1.3", "1.p" and "1.alpha" each sort strictly ahead of the next one
      round a cycle, so the comparator is not a total order and the tag a sort puts
      first can depend on the order the tags arrived in. */
  lemma NotTransitive(a: string, b: string, c: string)
    requires a == "1.3" && b == "1.p" && c == "1.alpha"
    ensures Newer(a, b) && Newer(b, c) && Newer(c, a)
  {
    TwoParts(a, "1", "3");
    TwoParts(b, "1", "p");
    TwoParts(c, "1", "alpha");
    assert Newer(a, b) by {
      PatchFollowsNumbers("3");
      DecidedBySecondPart(a, b, "1", "3", "p");
    }
    assert Newer(b, c) by {
      assert !IsDigit("p"[0]) && !IsDigit("alpha"[0]);
      OrdinalCompareAt("p", "alpha", 0);
      TextPartsReversed("p", "alpha");
      DecidedBySecondPart(b, c, "1", "p", "alpha");
    }
    assert Newer(c, a) by {
      assert !IsDigit("alpha"[0]);
      OrdinalCompareAt("alpha", "3", 0);
      TextPartsReversed("alpha", "3");
      DecidedBySecondPart(c, a, "1", "alpha", "3");
    }
  }
}
